=== FILE: README.md ===
# Songs service — a Dafny model

This project models a small song-catalogue web service that sits on a document store. It has two collections, `songs` and `ratings`, and four HTTP handlers:

- `GET /songs` lists the songs and searches them case-insensitively by artist or title, with `offset`/`limit` pagination.
- `GET /songs/average_difficulty` returns the mean difficulty, optionally for one level.
- `POST /songs/{song_id}/ratings` records a rating from 1 to 5.
- `GET /songs/{song_id}/ratings` returns the mean, lowest and highest rating of one song.

The model also covers:

- the pydantic field constraints on songs (`SongBase`, `SongCreate`, `SongInDB`) and on ratings (`RatingValidator`);
- the start-up migration that rewrites legacy `YYYY-MM-DD` text release dates into instants;
- the reset that drops both collections and seeds eleven fixture songs.

The store is an immutable value (`Db.Store`). Its songs and ratings are sequences in insertion order, which stands in for the store's natural order. Each handler is a pure function from the store and the request to a `Result`. The one writing handler also returns the new store.

Modules, in dependency order:

- `Wrappers`: `Option` and `Result`.
- `Errors`: validation errors, HTTP errors and raised exceptions.
- `Text`: ASCII lower-casing, substring containment, and literal search texts.
- `SongSchema`: the song records and their validators.
- `RatingSchema`: the rating records and the rating range check.
- `Stats`: sum, min, max and mean of integer lists.
- `Db`: the store, its invariant, rating lookup and the date migration.
- `Router`: the four handlers.
- `Seed`: the fixture and the reset, plus what the handlers answer on the seeded store.

Edge cases of the code that the model keeps:

- **Negative offset.** A negative `offset` raises, because the driver's `skip` refuses it; it is modelled as `Raised(NegativeSkip)`.
- **Limit.** `limit` 0 means "no limit", and a negative limit counts by its magnitude, as the driver's `limit` does. The page length is `min(limit, max(0, n - offset))` for a positive limit.
- **Empty search text.** `""` is falsy (router.py:31), so it takes the unfiltered branch and every song is listed.
- **Level 0.** For `level`, 0 is falsy (router.py:64), so a direct call of the handler with level 0 averages over all songs. Over HTTP, the `conint(gt=0, le=100)` annotation rejects 0 before the handler runs.
- **Re-validation.** `get_songs` and `get_songs_average_difficulty` build `SongGet`/`SongInDB` from each document they read (router.py:33, 51, 62). The listing and the average therefore fail with a validation error when a document they read breaks a constraint. `add_song_rating` and `get_song_rating` only look the song up (router.py:81, 95).

The average-difficulty assertion at test_router.py:79 has the form `x == y or pytest.approx(...)`. The second operand is always truthy, so the assertion cannot fail. The per-level averages of the seed are proved below as exact values instead: 14.096, 29.08/3, 6, 2 and 0.

## Model

| member | source | states |
|---|---|---|
| SongSchema.CheckLength | db/schemas/song.py:12-13 | a text field passes iff its length is between 1 and its maximum; otherwise exactly one error is reported, located at that field |
| SongSchema.CheckDifficulty | db/schemas/song.py:14 | difficulty passes iff 0 < d <= 100 (strict below, inclusive above); otherwise one error on `difficulty` |
| SongSchema.CheckLevel | db/schemas/song.py:15 | level passes iff 0 < l <= 100; otherwise one error on `level` |
| SongSchema.BaseErrors | db/schemas/song.py:11-15 | no errors iff all four SongBase constraints hold; the errors name exactly the failing fields, in declaration order |
| SongSchema.ValidateSongBase | db/schemas/song.py:11-15 | a SongBase is accepted iff every field constraint holds and is then returned unchanged; otherwise a validation error lists every failing field |
| SongSchema.EnsureDateRange | db/schemas/song.py:22-26 | `released` is rejected iff it lies strictly after `now` (so equal to `now` is accepted), with the "can not be in the future" message; otherwise it is returned unchanged |
| SongSchema.ValidateSongCreate | db/schemas/song.py:18-26 | accepted iff the base fields are valid and the release is not in the future; the error lists the failing base fields, then `released` |
| SongSchema.ValidateSong | db/schemas/song.py:29-30 | re-validating a stored song accepts it unchanged iff it is valid at `now`, else reports a non-empty validation error |
| SongSchema.DerivedModelsKeepBaseConstraints | db/schemas/song.py:18-30 | passing SongCreate or SongInDB validation implies passing SongBase validation |
| SongSchema.ValidityPersists | db/schemas/song.py:22-26 | a song valid at one instant stays valid at every later instant |
| RatingSchema.ValidateRating | app/schemas/rating.py:20-21 | a rating is accepted unchanged iff 1 <= r <= 5; below 1 gives exactly one error, "greater than or equal to 1"; above 5 exactly one error, "less than or equal to 5" |
| RatingSchema.SingleConfirmation | app/schemas/rating.py:12-13 | the confirmation enumeration has exactly one member, whose value is "Rating added successfully" |
| Stats.Min | router.py:111 | the minimum of a non-empty list is one of its elements and at most every element |
| Stats.Max | router.py:112 | the maximum of a non-empty list is one of its elements and at least every element |
| Stats.MeanTimesCount | router.py:110 | the mean taken `len` times gives back the sum |
| Stats.SumBounds | router.py:110 | a sum of `n` values in [lo, hi] lies in [n * lo, n * hi] |
| Stats.MeanBetweenExtremes | router.py:109-113 | min <= mean <= max for every non-empty list of integers |
| Text.LowerIsCaseBlind | router.py:38-39 | texts that differ only in letter case have the same lower-cased form |
| Text.MatchOfPart | router.py:38-39 | case-insensitive containment of a text carries over to every part of that text |
| Text.LacksCharNoMatch | router.py:38-39 | a text lacking, in any case, one character of the search text does not contain it |
| Db.InsertRating | router.py:84-86 | inserting a rating adds exactly one document with the given song and value at the end of `ratings`, and leaves the songs unchanged; on a store with fresh ids, the new id differs from every existing rating's id and ids stay fresh |
| Db.InsertRatingKeepsConsistency | router.py:81-86 | inserting a rating for an existing song keeps ids fresh and unique, and every rating referring to a song |
| Db.RatingsOf | router.py:98-103 | the ratings query yields at most one value per rating document, and every value it yields is the rating of a document that refers to the song |
| Db.RatingsOfAppend | router.py:98-103 | one song's ratings over two runs of documents are its ratings over each, in order |
| Db.RatingsOfMembers | router.py:98-103 | a value is collected iff some rating document refers to the song with that value |
| Db.FixReleasedDates | db/get_db.py:29-37 | the migration keeps the count and order of the documents. Every document before the first unparsable text date has been rewritten: only `released` changed, it is now an instant, an instant was kept, and a text became `parse(text)`. The first unparsable document and every later one are exactly as they were. The fault is raised iff such a document exists, and it names that document's text |
| Db.FixReleasedDatesFields | db/get_db.py:30-37 | per document: only `released` changes, instants are untouched, a date still text afterwards is left with its whole document, and a rewritten text becomes `parse(text)`. Without a fault every date is an instant; a fault leaves an unparsable text date |
| Db.MigratedCollectionLoads | db/get_db.py:29-37 | after a migration without a fault, the handlers read one song per document, in order, with the document's id and fields; an instant is kept and a text date becomes `parse(text)` |
| Db.FixReleasedDatesIdempotent | db/get_db.py:29-37 | running the migration on its own output gives back the same collection and outcome |
| Db.FixReleasedDatesKeepsStamped | db/get_db.py:31 | a collection that holds only instants is left exactly as it is, without a fault |
| Router.Paginate | router.py:43-44 | `skip(offset).limit(limit)` returns the remaining documents after `offset`, capped at abs(limit) unless limit is 0, and element i is document offset + i |
| Router.Matching | router.py:35-42 | every song the `$or` query finds is in the collection and has the search text in its artist or its title, ignoring case |
| Router.MatchingComplete | router.py:35-42 | every song whose artist or title contains the search text is found |
| Router.MatchingAppend | router.py:35-42 | the search keeps natural order: the matches in a concatenation are the concatenation of the matches |
| Router.MatchesPart | router.py:38-39 | a song found by a search text is found by every part of that text |
| Router.MatchingIgnoresCase | router.py:38-39 | the matches depend on the search text only through its lower-cased form |
| Router.WithLevel | router.py:63-65 | every song selected by the level query is in the collection and has that level |
| Router.WithLevelExact | router.py:63-65 | a song is selected by the level query iff it is in the collection and has that level |
| Router.FirstInvalid | router.py:61-66 | the position of the first song that fails re-validation; all songs before it pass |
| Router.ValidateAll | router.py:50-53 | building SongGet/SongInDB models succeeds iff every document is valid, and returns them unchanged; otherwise it raises the error of the first invalid document |
| Router.GetSongs | router.py:21-53 | a negative offset raises; every other failure is a validation error; every listed song is stored, valid, and matches the search text when one is given; with offset >= 0 the listing succeeds iff every song on the requested page is valid, so an invalid document outside the page does not make it fail; a successful listing is exactly the `offset`/`limit` page (`Router.Paginate`) of the selected songs |
| Router.UnfilteredListing | router.py:49-53 | without a search text, when the songs on the page are valid, the listing is the window of the collection starting at `offset`: min(limit, n - offset) songs for a positive limit, all remaining for limit 0, min(-limit, n - offset) for a negative limit, song i being song offset + i |
| Router.EmptySearchListsAll | router.py:31 | an empty search text gives exactly the listing of no search text |
| Router.FilteredListing | router.py:31-44 | with a search text, when the matching songs on the page are valid, the listing is the window starting at `offset` of the matching songs in natural order: min(limit, m - offset) songs for a positive limit, all remaining matches for limit 0, min(-limit, m - offset) for a negative limit, song i being match offset + i; filtering comes before pagination |
| Router.SearchIgnoresCase | router.py:38-39 | two search texts that differ only in letter case give identical results |
| Router.AverageDifficulty | router.py:56-71 | succeeds iff every selected song is valid; 0 when nothing is selected; otherwise lies in (0, 100] and times the number of selected songs gives their total difficulty |
| Seed.AverageOfLevel | router.py:61-71 | on an all-valid store, the average for a non-zero level is the level's total difficulty over its count, or 0 when it has no songs |
| Router.LevelQuery | router.py:58 | the `level` parameter passes iff absent or in 1..100; 0 or below gives the "greater than 0" error, above 100 the "less than or equal to 100" error |
| Router.AverageDifficultyRequest | router.py:56-71 | over HTTP, a level of 0 or below fails with the "greater than 0" error and one above 100 with the "less than or equal to 100" error; a successful request named no level or a non-zero one; without a level it succeeds iff every song is valid, and with a level in 1..100 iff every song of that level is valid |
| Router.RequestedLevelAlwaysFilters | router.py:58-71 | over HTTP a request that names a level always filters by it and is answered as the handler answers it; level 0 is refused instead of being read as "no level"; a request without a level gets the handler's answer over all songs |
| Router.AddSongRating | router.py:74-88 | succeeds iff 1 <= rating <= 5 and the song exists; an out-of-range rating gives the validator's error before any lookup, even for an unknown song; an unknown song gives 404 "Song not found"; both failures leave the store unchanged; success appends exactly one rating for the song, keeps the songs, and returns the fixed confirmation |
| Router.AddSongRatingKeepsConsistency | router.py:80-86 | submitting a rating keeps ids fresh and unique, and every rating referring to a song |
| Router.AddSongRatingRecords | router.py:84-86 | after a successful submission the song's ratings gain exactly the new value at the end; every other song's ratings are unchanged |
| Router.Statistics | router.py:109-113 | the reported lowest and highest are ratings of the song that bound all its ratings, and the average times their number is their sum |
| Router.StatisticsBetweenExtremes | router.py:109-113 | lowest <= average <= highest |
| Router.GetSongRating | router.py:91-113 | an unknown song gives 404 "Song not found"; a song without ratings gives zeros; otherwise the result summarises exactly that song's ratings |
| Router.RatingAverageBetweenExtremes | router.py:104-113 | every successful answer has lowest <= average <= highest |
| Router.StatisticsOfOne | test_router.py:166 | a single rating is its own lowest, highest and mean |
| Router.StatisticsOneToThree | test_router.py:165 | ratings [1, 2, 3] give lowest 1, mean 2, highest 3 |
| Router.StatisticsOneAndFive | test_router.py:168 | ratings [1, 5] give lowest 1, mean 3, highest 5 |
| Router.RatingStatisticsExample | test_router.py:169 | a song with ratings [1, 5, 5] gets lowest 1, mean 11/3, highest 5 |
| Seed.ValidateRecord | db/init.py:25-28 | one fixture entry is accepted iff its fields are valid and its date text parses to an instant not after `now`, becoming a SongCreate with that instant; invalid fields raise the SongBase error; an unparsable date raises from strptime |
| Seed.FirstRejected | db/init.py:24-29 | the position of the first fixture entry that fails; all before it are accepted |
| Seed.ValidateRecords | db/init.py:24-29 | the list is built iff every entry is accepted, entry by entry, in order; otherwise it raises the first failing entry's error |
| Seed.InsertSongs | db/init.py:23-30 | `insert_many` stores one document per entry, in order: song i has entry i's fields and release instant, and id `first + i` |
| Seed.InsertedEntries | db/init.py:23-30 | the inserted songs carry the entries' fields and parsed dates, and are valid |
| Seed.InitializeDb | db/init.py:5-30 | the reset empties `ratings`; it succeeds iff every fixture entry is accepted, and then `songs` is exactly the eleven fixture songs in order, valid, with their parsed dates and fresh ids; on failure `songs` is empty |
| Seed.InitializeDbConsistent | db/init.py:7-30 | the reset establishes the store invariant whatever the store held before |
| Seed.ResetForgetsPriorContents | db/init.py:7-8 | the outcome of the reset does not depend on the previous contents of either collection |
| Seed.SeedRecordsValid | db/init.py:10-22 | the fixture has eleven entries and each satisfies the SongBase constraints |
| Seed.InitializeDbSucceeds | db/init.py:23-30 | the reset succeeds iff every fixture date parses to an instant no later than `now` |
| Seed.InitializeDbSeeds | db/init.py:5-30 | a successful reset yields the seeded store, which stays seeded at every later instant |
| Seed.SeedListingCounts | test_router.py:30-61 | on the seeded store the listing counts are: none 11, offset 2 → 9, limit 2 → 2, (2, 2) → 2, (2, 10) → 9, offset 20 → 0, limit 20 → 11 |
| Seed.SeedAverageLevel13 | test_router.py:67 | on the seeded store level 13 averages exactly 14.096 |
| Seed.SeedAverageLevel9 | test_router.py:68 | level 9 averages exactly 29.08 / 3 (about 9.693) |
| Seed.SeedAverageLevel6 | test_router.py:69 | level 6 averages exactly 6 |
| Seed.SeedAverageLevel3 | test_router.py:70 | level 3 averages exactly 2 |
| Seed.SeedAverageLevel100 | test_router.py:71 | no seeded song has level 100, so its average is 0 |
| Seed.SeedAverageDifficulty | test_router.py:64-79 | the five per-level averages of the seeded store |
| Seed.SearchWithinBeatles | test_router.py:88-96 | a search text within "The Beatles" that Mr Fastfinger's artist and title both miss finds ten songs, the first by The Beatles |
| Seed.SeedSearchAwakiWaki | test_router.py:85 | "Awaki-Waki" finds one song, by Mr Fastfinger |
| Seed.SeedSearchWaki | test_router.py:86 | "waki" finds one song, by Mr Fastfinger |
| Seed.SeedSearchFast | test_router.py:87 | "Fast" finds one song, by Mr Fastfinger |
| Seed.SeedSearchThe | test_router.py:88 | "The" finds ten songs, the first by The Beatles |
| Seed.SeedSearchBeatles | test_router.py:89 | "beatles" finds ten songs, the first by The Beatles |
| Seed.SeedSearchForeignText | test_router.py:90 | "Ã¤" finds nothing |
| Seed.SeedSearchBeat | test_router.py:93 | "Beat" finds ten songs, the first by The Beatles |
| Seed.SeedSearchTh | test_router.py:94 | "Th" finds ten songs, the first by The Beatles |
| Seed.SeedSearchTheBeat | test_router.py:95 | "The Beat" finds ten songs, the first by The Beatles |
| Seed.SeedSearchEatl | test_router.py:96 | "eatl" finds ten songs, the first by The Beatles |
| Seed.SeedSearchA | test_router.py:97 | "a" finds all eleven songs, the first by The Beatles |
| Seed.SeedSearchEmpty | test_router.py:98 | "" lists all eleven songs, the first by The Beatles |

## Left out

- The store client and its connection are left out as I/O and global state: `MongoClientWithDB`, the `get_db` singleton, and `get_db_name` with its environment switch (db/get_db.py:18-26).
- `create_indexes` (db/get_db.py:39-48, db/init.py:31) is left out because indexes do not change any query result. The text index is used by no handler.
- The module-level migration and index calls at import (db/get_db.py:50-51) are left out. The handlers read `Song` values whose `released` is already an instant; `Db.MigratedCollectionLoads` states what a migrated collection loads as.
- FastAPI routing, `Depends` and `asyncio` are left out. `conint` on handler parameters is modelled only for `level` (`Router.LevelQuery`). The `rating` parameter's check reports the same message as the explicit `RatingValidator` call that `Router.AddSongRating` models.
- Router.GetSongs: takes the search text as a literal. It requires that the text contain no regular-expression metacharacters, because `$regex` semantics are not modelled.
- Case-insensitivity is ASCII lower-casing only; Unicode case folding is not modelled.
- Ids are opaque values drawn from a counter in the store (`nextId`). ObjectId hex parsing, the error bson raises on a malformed id string, and `str(id)` in `SongGet` are not modelled.
- `datetime.now()` becomes the parameter `now`. `strptime(..., '%Y-%m-%d')` becomes an uninterpreted `parse: string -> Option<DateTime>`, and its internals are not modelled.
- Difficulties and averages are `real`. Floating-point rounding (e.g. of 70.48 / 5) is not modelled.
- A negative `limit` is read by its magnitude. The driver's single-batch cap on such a result is not modelled.
- Concurrent requests are not modelled; each handler is one sequential step on the store.
- pydantic's coercion of a text `released` into a datetime when building a model is not modelled. Stored songs carry typed instants.
- The migration models a stored `released` that is either a text or an instant (`Db.StoredDate`). A `None` or numeric value, on which `strptime` raises `TypeError`, and a document without `released`, on which the lookup raises `KeyError` (db/get_db.py:31, 35), are not modelled.

=== FILE: db.dfy ===
/**
 The document store behind the service: the `songs` and `ratings` collections in
 their natural (insertion) order, the id allocation of the store, the lookups the
 handlers issue, and the start-up migration that rewrites legacy text release
 dates into instants.
 */
module Db {
  import opened Wrappers
  import opened Errors
  import opened SongSchema
  import opened RatingSchema

  /**
   Both collections, in natural order. `nextId` stands for the store's id
   generator: every id it hands out is `Id(nextId)`, after which `nextId` grows.
   */
  datatype Store = Store(songs: seq<Song>, ratings: seq<RatingRecord>, nextId: nat)

  /** A handler outcome together with the store it leaves behind. */
  datatype Response<+T> = Response(store: Store, result: Result<T, Error>)

  /** `find_one({"_id": id})` on the songs collection finds a document. */
  predicate HasSong(songs: seq<Song>, id: Id)
  {
    exists i | 0 <= i < |songs| :: songs[i].id == id
  }

  /** Ids are unique per collection and every id in use was handed out by the generator. */
  predicate IdsFresh(st: Store)
  {
    && (forall i :: 0 <= i < |st.songs| ==> st.songs[i].id.serial < st.nextId)
    && (forall i :: 0 <= i < |st.ratings| ==> st.ratings[i].id.serial < st.nextId)
    && (forall i, j :: 0 <= i < j < |st.songs| ==> st.songs[i].id != st.songs[j].id)
    && (forall i, j :: 0 <= i < j < |st.ratings| ==> st.ratings[i].id != st.ratings[j].id)
  }

  /** Every stored rating refers to a song that existed when it was written (no song is ever deleted). */
  predicate RatingsReferToSongs(st: Store)
  {
    forall i :: 0 <= i < |st.ratings| ==> HasSong(st.songs, st.ratings[i].songId)
  }

  /** The invariant the writing operations keep. */
  predicate Consistent(st: Store)
  {
    IdsFresh(st) && RatingsReferToSongs(st)
  }

  /** `insert_one({"song_id": songId, "rating": value})`: one new document at the end of `ratings`. */
  function InsertRating(st: Store, songId: Id, value: int): (st': Store)
    ensures st'.songs == st.songs
    ensures st'.ratings == st.ratings + [RatingRecord(Id(st.nextId), songId, value)]
    ensures st'.nextId == st.nextId + 1
    ensures IdsFresh(st) ==> forall i :: 0 <= i < |st.ratings| ==> st.ratings[i].id != Id(st.nextId)
    ensures IdsFresh(st) ==> IdsFresh(st')
  {
    Store(st.songs, st.ratings + [RatingRecord(Id(st.nextId), songId, value)], st.nextId + 1)
  }

  lemma {:induction false} InsertRatingKeepsConsistency(st: Store, songId: Id, value: int)
    requires Consistent(st)
    requires HasSong(st.songs, songId)
    ensures Consistent(InsertRating(st, songId, value))
  {
    var st' := InsertRating(st, songId, value);
    forall i | 0 <= i < |st'.ratings|
      ensures HasSong(st'.songs, st'.ratings[i].songId)
    {
      if i < |st.ratings| {
        assert st'.ratings[i] == st.ratings[i];
      }
    }
  }

  /** The `rating` values of the documents of `ratings` that refer to `songId`, in natural order. */
  function RatingsOf(ratings: seq<RatingRecord>, songId: Id): (values: seq<int>)
    ensures |values| <= |ratings|
    ensures forall v :: v in values ==>
              exists i :: 0 <= i < |ratings| && ratings[i].songId == songId && ratings[i].rating == v
  {
    if ratings == [] then []
    else (if ratings[0].songId == songId then [ratings[0].rating] else []) + RatingsOf(ratings[1..], songId)
  }

  lemma {:induction false} RatingsOfAppend(a: seq<RatingRecord>, b: seq<RatingRecord>, songId: Id)
    ensures RatingsOf(a + b, songId) == RatingsOf(a, songId) + RatingsOf(b, songId)
  {
    if a == [] {
      assert a + b == b;
    } else {
      assert (a + b)[1..] == a[1..] + b;
      RatingsOfAppend(a[1..], b, songId);
    }
  }

  /** Each collected value is the rating of a document that refers to `songId`, and each such document contributes. */
  lemma {:induction false} RatingsOfMembers(ratings: seq<RatingRecord>, songId: Id, v: int)
    ensures v in RatingsOf(ratings, songId)
            <==> exists i :: 0 <= i < |ratings| && ratings[i].songId == songId && ratings[i].rating == v
  {
    if ratings != [] {
      RatingsOfMembers(ratings[1..], songId, v);
      var head := if ratings[0].songId == songId then [ratings[0].rating] else [];
      assert RatingsOf(ratings, songId) == head + RatingsOf(ratings[1..], songId);
      if exists i :: 0 <= i < |ratings| && ratings[i].songId == songId && ratings[i].rating == v {
        var i :| 0 <= i < |ratings| && ratings[i].songId == songId && ratings[i].rating == v;
        if i > 0 {
          assert ratings[1..][i - 1] == ratings[i];
        }
      }
      if v in RatingsOf(ratings[1..], songId) {
        var j :| 0 <= j < |ratings[1..]| && ratings[1..][j].songId == songId && ratings[1..][j].rating == v;
        assert ratings[j + 1] == ratings[1..][j];
      }
    }
  }

  // ---------------------------------------------------------------------------
  // Legacy release dates

  /** A `released` value as the raw collection may hold it: an instant, or legacy `YYYY-MM-DD` text. */
  datatype StoredDate = Stamp(at: DateTime) | Text(raw: string)

  /** A raw song document, before the migration has rewritten its release date. */
  datatype SongDocument = SongDocument(id: Id, artist: string, title: string, difficulty: real, level: int,
                                       released: StoredDate)

  /** The collection after a migration pass, and the exception that stopped the pass, if any. */
  datatype Migration = Migration(docs: seq<SongDocument>, fault: Option<Fault>)

  /** The document with only its release date changed. */
  function WithReleased(d: SongDocument, at: DateTime): SongDocument
  {
    SongDocument(d.id, d.artist, d.title, d.difficulty, d.level, Stamp(at))
  }

  /** Same document up to its release date. */
  predicate SameButReleased(a: SongDocument, b: SongDocument)
  {
    a.id == b.id && a.artist == b.artist && a.title == b.title && a.difficulty == b.difficulty && a.level == b.level
  }

  predicate AllStamped(docs: seq<SongDocument>)
  {
    forall i :: 0 <= i < |docs| ==> docs[i].released.Stamp?
  }

  /** A document whose text release date the parse refuses: the one that stops the migration. */
  predicate Unparsable(d: SongDocument, parse: string -> Option<DateTime>)
  {
    d.released.Text? && parse(d.released.raw).None?
  }

  /** The position of the first unparsable document, or `|docs|` when every date parses. */
  function FirstUnparsable(docs: seq<SongDocument>, parse: string -> Option<DateTime>): (k: nat)
    ensures k <= |docs|
    ensures forall i :: 0 <= i < k ==> !Unparsable(docs[i], parse)
    ensures k < |docs| ==> Unparsable(docs[k], parse)
  {
    if docs == [] then 0
    else if Unparsable(docs[0], parse) then 0
    else
      var k := FirstUnparsable(docs[1..], parse);
      assert forall i :: 1 <= i < k + 1 ==> docs[i] == docs[1..][i - 1];
      k + 1
  }

  /** `e` is `d` after one step of the migration: its date is an instant, rewritten from the text by `parse` when it was text. */
  predicate Rewritten(d: SongDocument, e: SongDocument, parse: string -> Option<DateTime>)
  {
    && SameButReleased(e, d)
    && e.released.Stamp?
    && (d.released.Stamp? ==> e == d)
    && (d.released.Text? ==> parse(d.released.raw) == Some(e.released.at))
  }

  /**
   fix_released_date_to_datetime: walk the collection in natural order and rewrite each
   text `released` to `parse(text)` (strptime with '%Y-%m-%d'); documents holding an
   instant are skipped. A text that does not parse raises: the documents before it stay
   rewritten, it and the rest are untouched.
   */
  function FixReleasedDates(docs: seq<SongDocument>, parse: string -> Option<DateTime>): (m: Migration)
    ensures |m.docs| == |docs|
    ensures forall i :: 0 <= i < FirstUnparsable(docs, parse) ==> Rewritten(docs[i], m.docs[i], parse)
    ensures forall i :: FirstUnparsable(docs, parse) <= i < |docs| ==> m.docs[i] == docs[i]
    ensures m.fault == if FirstUnparsable(docs, parse) < |docs|
                       then Some(UnparsableDate(docs[FirstUnparsable(docs, parse)].released.raw))
                       else None
  {
    if docs == [] then Migration([], None)
    else
      var rest := FixReleasedDates(docs[1..], parse);
      match docs[0].released
      case Stamp(_) =>
        MigrationStep(docs, docs[0], rest, parse);
        Migration([docs[0]] + rest.docs, rest.fault)
      case Text(raw) =>
        match parse(raw)
        case None => Migration(docs, Some(UnparsableDate(raw)))
        case Some(at) =>
          MigrationStep(docs, WithReleased(docs[0], at), rest, parse);
          Migration([WithReleased(docs[0], at)] + rest.docs, rest.fault)
  }

  /** One step of the migration: a rewritten first document in front of the migrated rest. */
  lemma MigrationStep(docs: seq<SongDocument>, head: SongDocument, rest: Migration, parse: string -> Option<DateTime>)
    requires docs != [] && !Unparsable(docs[0], parse) && Rewritten(docs[0], head, parse)
    requires |rest.docs| == |docs| - 1
    requires forall i :: 0 <= i < FirstUnparsable(docs[1..], parse) ==> Rewritten(docs[1..][i], rest.docs[i], parse)
    requires forall i :: FirstUnparsable(docs[1..], parse) <= i < |docs| - 1 ==> rest.docs[i] == docs[1..][i]
    requires rest.fault == if FirstUnparsable(docs[1..], parse) < |docs| - 1
                           then Some(UnparsableDate(docs[1..][FirstUnparsable(docs[1..], parse)].released.raw))
                           else None
    ensures var m, k := Migration([head] + rest.docs, rest.fault), FirstUnparsable(docs, parse);
            && (forall i :: 0 <= i < k ==> Rewritten(docs[i], m.docs[i], parse))
            && (forall i :: k <= i < |docs| ==> m.docs[i] == docs[i])
            && m.fault == if k < |docs| then Some(UnparsableDate(docs[k].released.raw)) else None
  {
    var tail, j := docs[1..], FirstUnparsable(docs[1..], parse);
    var m := Migration([head] + rest.docs, rest.fault);
    assert FirstUnparsable(docs, parse) == j + 1;
    forall i | 1 <= i < |docs|
      ensures docs[i] == tail[i - 1] && m.docs[i] == rest.docs[i - 1]
    {
    }
  }

  /**
   What the migration does document by document: only `released` changes, instants are
   untouched, a date left as text is left with its whole document, a rewritten text becomes
   `parse(text)`; without a fault every date is an instant, and a fault leaves an unparsable text.
   */
  lemma FixReleasedDatesFields(docs: seq<SongDocument>, parse: string -> Option<DateTime>)
    ensures var m := FixReleasedDates(docs, parse);
            && (forall i :: 0 <= i < |docs| ==> SameButReleased(m.docs[i], docs[i]))
            && (forall i :: 0 <= i < |docs| && docs[i].released.Stamp? ==> m.docs[i] == docs[i])
            && (forall i :: 0 <= i < |docs| && m.docs[i].released.Text? ==> m.docs[i] == docs[i])
            && (forall i :: 0 <= i < |docs| && docs[i].released.Text? && m.docs[i].released.Stamp?
                            ==> parse(docs[i].released.raw) == Some(m.docs[i].released.at))
            && (m.fault.None? ==> AllStamped(m.docs))
            && (m.fault.Some? ==> exists i :: 0 <= i < |docs| && m.docs[i].released.Text?
                                             && parse(m.docs[i].released.raw).None?)
  {
    var m, k := FixReleasedDates(docs, parse), FirstUnparsable(docs, parse);
    forall i | 0 <= i < |docs|
      ensures SameButReleased(m.docs[i], docs[i])
      ensures docs[i].released.Stamp? ==> m.docs[i] == docs[i]
      ensures m.docs[i].released.Text? ==> m.docs[i] == docs[i]
    {
      if i < k {
        assert Rewritten(docs[i], m.docs[i], parse);
      }
    }
    if m.fault.Some? {
      assert m.docs[k] == docs[k];
    }
  }

  /** Running the migration a second time changes nothing, whether or not the first run was stopped. */
  lemma {:induction false} FixReleasedDatesIdempotent(docs: seq<SongDocument>, parse: string -> Option<DateTime>)
    ensures FixReleasedDates(FixReleasedDates(docs, parse).docs, parse) == FixReleasedDates(docs, parse)
  {
    if docs != [] {
      var m := FixReleasedDates(docs, parse);
      var rest := FixReleasedDates(docs[1..], parse);
      FixReleasedDatesIdempotent(docs[1..], parse);
      match docs[0].released
      case Stamp(_) =>
        assert m.docs[1..] == rest.docs;
      case Text(raw) =>
        match parse(raw)
        case None =>
        case Some(at) =>
          assert m.docs[1..] == rest.docs;
    }
  }

  /** A collection that already holds only instants is left exactly as it is. */
  lemma {:induction false} FixReleasedDatesKeepsStamped(docs: seq<SongDocument>, parse: string -> Option<DateTime>)
    requires AllStamped(docs)
    ensures FixReleasedDates(docs, parse) == Migration(docs, None)
  {
    if docs != [] {
      FixReleasedDatesKeepsStamped(docs[1..], parse);
      assert [docs[0]] + docs[1..] == docs;
    }
  }

  /** The typed song a stamped document becomes. */
  function Load(d: SongDocument): Song
    requires d.released.Stamp?
  {
    Song(d.id, d.artist, d.title, d.difficulty, d.level, d.released.at)
  }

  /** The songs collection as the handlers read it, once every release date is an instant. */
  function LoadAll(docs: seq<SongDocument>): (songs: seq<Song>)
    requires AllStamped(docs)
    ensures |songs| == |docs|
    ensures forall i :: 0 <= i < |docs| ==> songs[i] == Load(docs[i])
  {
    seq(|docs|, i requires 0 <= i < |docs| => Load(docs[i]))
  }

  /**
   After a migration that finishes without a fault, the handlers read one song per document, in
   order, with the document's fields and its release date as an instant (parsed from the text
   where it was text).
   */
  lemma MigratedCollectionLoads(docs: seq<SongDocument>, parse: string -> Option<DateTime>)
    requires FixReleasedDates(docs, parse).fault.None?
    ensures AllStamped(FixReleasedDates(docs, parse).docs)
    ensures var songs := LoadAll(FixReleasedDates(docs, parse).docs);
            && |songs| == |docs|
            && forall i :: 0 <= i < |docs| ==>
                 && songs[i].id == docs[i].id && songs[i].artist == docs[i].artist
                 && songs[i].title == docs[i].title && songs[i].difficulty == docs[i].difficulty
                 && songs[i].level == docs[i].level
                 && (docs[i].released.Stamp? ==> songs[i].released == docs[i].released.at)
                 && (docs[i].released.Text? ==> parse(docs[i].released.raw) == Some(songs[i].released))
  {
    var m := FixReleasedDates(docs, parse);
    forall i | 0 <= i < |docs|
      ensures Rewritten(docs[i], m.docs[i], parse)
    {
    }
  }
}

=== FILE: errors.dfy ===
/** The failures the service can report, mirroring the exceptions its handlers raise. */
module Errors {

  /** The model field a validation error is reported against (pydantic's `loc`). */
  datatype Field = Artist | Title | Difficulty | Level | Released | Rating

  /** One entry of a pydantic `ValidationError`: the field and its human-readable message. */
  datatype FieldError = FieldError(loc: Field, msg: string)

  /** Exceptions raised by the database driver or the standard library that nothing catches. */
  datatype Fault =
    | NegativeSkip                 // the driver refuses a cursor `skip` below zero
    | UnparsableDate(raw: string)  // `strptime(raw, '%Y-%m-%d')` rejects the text

  datatype Error =
    | Invalid(errors: seq<FieldError>)  // pydantic ValidationError
    | Http(status: int, detail: string) // fastapi HTTPException
    | Raised(fault: Fault)              // any other exception, propagated unhandled

  /** The only HTTP error the handlers raise themselves: the referenced song does not exist. */
  const NotFound: Error := Http(404, "Song not found")
}

=== FILE: rating_schema.dfy ===
/**
 The rating records: the stored rating document (RatingInDB), the statistics
 response (RatingGet), the submission confirmation, and the explicit range check
 on a submitted rating (RatingValidator).
 */
module RatingSchema {
  import opened Wrappers
  import opened Errors
  import opened SongSchema

  const MinRating: int := 1
  const MaxRating: int := 5

  /** A stored rating document. Its value is an unconstrained integer: the store does not re-check the range. */
  datatype RatingRecord = RatingRecord(id: Id, songId: Id, rating: int)

  /** Rating statistics of one song: the mean as a real, the extremes as integers. */
  datatype RatingGet = RatingGet(averageRating: real, lowestRating: int, highestRating: int)

  /** The confirmation enumeration; it has a single member. */
  datatype ConfirmationResult = Successful
  {
    function Value(): string
    {
      "Rating added successfully"
    }
  }

  datatype RatingPostConfirmation = RatingPostConfirmation(result: ConfirmationResult)

  const BelowMinimumMessage := "ensure this value is greater than or equal to 1"
  const AboveMaximumMessage := "ensure this value is less than or equal to 5"

  /** RatingValidator: conint(ge=1, le=5), reporting the one violated bound. */
  function ValidateRating(r: int): (res: Result<int, Error>)
    ensures res.Ok? <==> MinRating <= r <= MaxRating
    ensures res.Ok? ==> res.value == r
    ensures r < MinRating
            ==> res == Err(Invalid([FieldError(Rating, "ensure this value is greater than or equal to 1")]))
    ensures r > MaxRating
            ==> res == Err(Invalid([FieldError(Rating, "ensure this value is less than or equal to 5")]))
  {
    if r < MinRating then Err(Invalid([FieldError(Rating, BelowMinimumMessage)]))
    else if r > MaxRating then Err(Invalid([FieldError(Rating, AboveMaximumMessage)]))
    else Ok(r)
  }

  /** The confirmation enumeration has exactly one value, and it reads "Rating added successfully". */
  lemma SingleConfirmation(c: ConfirmationResult)
    ensures c == Successful
    ensures c.Value() == "Rating added successfully"
  {
  }
}

=== FILE: router.dfy ===
/**
 The four HTTP handlers as pure functions of the store and the request: listing and
 searching songs, the average difficulty, submitting a rating, and the rating
 statistics of one song. The listing and the average re-validate every song document
 they read through the song models, so a stored document that breaks a constraint
 surfaces as a validation error; the two rating handlers only look the song up.
 */
module Router {
  import opened Wrappers
  import opened Errors
  import opened Text
  import opened SongSchema
  import opened RatingSchema
  import Stats
  import opened Db

  const DefaultOffset: int := 0
  const DefaultLimit: int := 200

  function Abs(x: int): nat
  {
    if x < 0 then -x else x
  }

  /** The smaller of two integers (named apart from `Stats.Min`, the minimum of a list). */
  function Smaller(a: int, b: int): int
  {
    if a <= b then a else b
  }

  /** How many documents remain after skipping `offset` of `n`. */
  function Remaining(n: nat, offset: nat): nat
  {
    if offset <= n then n - offset else 0
  }

  // ---------------------------------------------------------------------------
  // Cursor pagination

  /**
   `cursor.skip(offset).limit(limit)` on a result in natural order. The driver reads a
   limit of zero as "no limit" and a negative limit by its magnitude.
   */
  function Paginate(xs: seq<Song>, offset: nat, limit: int): (page: seq<Song>)
    ensures |page| == if limit == 0 then Remaining(|xs|, offset) else Smaller(Abs(limit), Remaining(|xs|, offset))
    ensures forall i :: 0 <= i < |page| ==> page[i] == xs[offset + i]
  {
    var rest := if offset <= |xs| then xs[offset..] else [];
    if limit == 0 || |rest| <= Abs(limit) then rest else rest[..Abs(limit)]
  }

  // ---------------------------------------------------------------------------
  // Query selections

  /** The `$or` of two case-insensitive `$regex` conditions, for a literal search text. */
  predicate SongMatches(s: Song, message: string)
  {
    ContainsIgnoringCase(s.artist, message) || ContainsIgnoringCase(s.title, message)
  }

  /** `find({"$or": ...})`: the matching songs, in natural order. */
  function Matching(songs: seq<Song>, message: string): (found: seq<Song>)
    ensures |found| <= |songs|
    ensures forall i :: 0 <= i < |found| ==> found[i] in songs && SongMatches(found[i], message)
  {
    if songs == [] then []
    else
      var rest := Matching(songs[1..], message);
      assert forall s :: s in songs[1..] ==> s in songs;
      (if SongMatches(songs[0], message) then [songs[0]] else []) + rest
  }

  /** A song found by a search text is found by every part of that text. */
  lemma MatchesPart(s: Song, p: string, q: string, j: int)
    requires SongMatches(s, p)
    requires OccursAt(Lower(p), Lower(q), j)
    ensures SongMatches(s, q)
  {
    if ContainsIgnoringCase(s.artist, p) {
      MatchOfPart(s.artist, p, q, j);
    } else {
      MatchOfPart(s.title, p, q, j);
    }
  }

  /** `find({"level": level})`: the songs of one level, in natural order. */
  function WithLevel(songs: seq<Song>, level: int): (found: seq<Song>)
    ensures |found| <= |songs|
    ensures forall i :: 0 <= i < |found| ==> found[i] in songs && found[i].level == level
  {
    if songs == [] then []
    else
      var rest := WithLevel(songs[1..], level);
      assert forall s :: s in songs[1..] ==> s in songs;
      (if songs[0].level == level then [songs[0]] else []) + rest
  }

  /** A search text that takes the filtering branch: present and non-empty (Python truthiness). */
  predicate IsSearch(message: Option<string>)
  {
    message.Some? && message.value != ""
  }

  function SelectedBySearch(songs: seq<Song>, message: Option<string>): seq<Song>
  {
    if IsSearch(message) then Matching(songs, message.value) else songs
  }

  /** A level filter that takes the filtering branch: present and non-zero (Python truthiness). */
  predicate IsLevelFilter(level: Option<int>)
  {
    level.Some? && level.value != 0
  }

  function SelectedByLevel(songs: seq<Song>, level: Option<int>): seq<Song>
  {
    if IsLevelFilter(level) then WithLevel(songs, level.value) else songs
  }

  // ---------------------------------------------------------------------------
  // Re-validation of the documents a handler reads

  predicate AllValid(songs: seq<Song>, now: DateTime)
  {
    forall i :: 0 <= i < |songs| ==> ValidSong(songs[i], now)
  }

  /** A page of a valid collection is valid: re-validating the page alone cannot fail then. */
  lemma PageOfValid(xs: seq<Song>, offset: nat, limit: int, now: DateTime)
    requires AllValid(xs, now)
    ensures AllValid(Paginate(xs, offset, limit), now)
  {
  }

  /** The position of the first song that fails validation, or `|songs|` when none does. */
  function FirstInvalid(songs: seq<Song>, now: DateTime): (k: nat)
    ensures k <= |songs|
    ensures AllValid(songs[..k], now)
    ensures k < |songs| ==> !ValidSong(songs[k], now)
  {
    if songs == [] then 0
    else if !ValidSong(songs[0], now) then 0
    else
      var k := FirstInvalid(songs[1..], now);
      assert songs[..k + 1] == [songs[0]] + songs[1..][..k];
      k + 1
  }

  /**
   Building one model per document in natural order: the first document that fails
   validation raises its ValidationError and ends the handler.
   */
  function ValidateAll(songs: seq<Song>, now: DateTime): (r: Result<seq<Song>, Error>)
    ensures r.Ok? <==> AllValid(songs, now)
    ensures r.Ok? ==> r.value == songs
    ensures r.Err? ==> var k := FirstInvalid(songs, now);
                       k < |songs| && r.error == ValidateSong(songs[k], now).error
  {
    var k := FirstInvalid(songs, now);
    if k < |songs| then Err(ValidateSong(songs[k], now).error)
    else
      assert songs[..k] == songs;
      Ok(songs)
  }

  // ---------------------------------------------------------------------------
  // GET /songs

  /**
   get_songs: an optional search on artist or title, then the cursor pagination, then
   one SongGet per document of the page. The search text is taken literally. Only the
   documents on the page are re-validated, so an invalid document outside it does not
   make the listing fail.
   */
  function GetSongs(st: Store, offset: int, limit: int, message: Option<string>, now: DateTime)
    : (r: Result<seq<Song>, Error>)
    requires message.Some? ==> IsLiteralPattern(message.value)
    ensures offset < 0 ==> r == Err(Raised(NegativeSkip))
    ensures r.Err? && offset >= 0 ==> r.error.Invalid?
    ensures r.Ok? ==> forall i :: 0 <= i < |r.value| ==> r.value[i] in st.songs && ValidSong(r.value[i], now)
    ensures r.Ok? && IsSearch(message) ==> forall i :: 0 <= i < |r.value| ==> SongMatches(r.value[i], message.value)
    ensures offset >= 0 ==> (r.Ok? <==> AllValid(Paginate(SelectedBySearch(st.songs, message), offset, limit), now))
    ensures r.Ok? ==> r.value == Paginate(SelectedBySearch(st.songs, message), offset, limit)
  {
    if offset < 0 then Err(Raised(NegativeSkip))
    else
      var selected := SelectedBySearch(st.songs, message);
      var page := Paginate(selected, offset, limit);
      assert forall i :: 0 <= i < |page| ==> page[i] in selected;
      assert forall s :: s in selected ==> s in st.songs;
      ValidateAll(page, now)
  }

  /**
   Without a search text, a listing is the window of the songs collection that starts
   at `offset`: at most `limit` songs when `limit` is positive, all remaining songs when
   it is zero.
   */
  lemma UnfilteredListing(st: Store, offset: int, limit: int, message: Option<string>, now: DateTime)
    requires message.None? || message == Some("")
    requires offset >= 0
    requires AllValid(Paginate(st.songs, offset, limit), now)
    ensures GetSongs(st, offset, limit, message, now).Ok?
    ensures var page := GetSongs(st, offset, limit, message, now).value;
            && (limit > 0 ==> |page| == Smaller(limit, Remaining(|st.songs|, offset)))
            && (limit == 0 ==> |page| == Remaining(|st.songs|, offset))
            && (limit < 0 ==> |page| == Smaller(-limit, Remaining(|st.songs|, offset)))
            && (forall i :: 0 <= i < |page| ==> page[i] == st.songs[offset + i])
  {
  }

  /** An empty search text is falsy: it lists exactly what no search text lists. */
  lemma EmptySearchListsAll(st: Store, offset: int, limit: int, now: DateTime)
    ensures GetSongs(st, offset, limit, Some(""), now) == GetSongs(st, offset, limit, None, now)
  {
  }

  /**
   With a search text, the listing is the window, starting at `offset`, of the matching
   songs in natural order: filtering comes before pagination.
   */
  lemma FilteredListing(st: Store, offset: int, limit: int, message: string, now: DateTime)
    requires message != "" && IsLiteralPattern(message)
    requires offset >= 0
    requires AllValid(Paginate(Matching(st.songs, message), offset, limit), now)
    ensures GetSongs(st, offset, limit, Some(message), now).Ok?
    ensures var page := GetSongs(st, offset, limit, Some(message), now).value;
            var found := Matching(st.songs, message);
            && (limit > 0 ==> |page| == Smaller(limit, Remaining(|found|, offset)))
            && (limit == 0 ==> |page| == Remaining(|found|, offset))
            && (limit < 0 ==> |page| == Smaller(-limit, Remaining(|found|, offset)))
            && (forall i :: 0 <= i < |page| ==> page[i] == found[offset + i])
  {
  }

  /** Matching keeps natural order: on a concatenation it is the concatenation of the matches. */
  lemma {:induction false} MatchingAppend(a: seq<Song>, b: seq<Song>, message: string)
    ensures Matching(a + b, message) == Matching(a, message) + Matching(b, message)
  {
    if a == [] {
      assert a + b == b;
    } else {
      var ab := a + b;
      assert ab[0] == a[0] && ab[1..] == a[1..] + b;
      MatchingAppend(a[1..], b, message);
      var rest := Matching(a[1..], message) + Matching(b, message);
      if SongMatches(a[0], message) {
        assert Matching(ab, message) == [a[0]] + rest;
      } else {
        assert Matching(ab, message) == rest;
      }
    }
  }

  /** Every song that matches the search text is found. */
  lemma {:induction false} MatchingComplete(songs: seq<Song>, message: string, s: Song)
    requires s in songs && SongMatches(s, message)
    ensures s in Matching(songs, message)
  {
    if songs[0] != s {
      MatchingComplete(songs[1..], message, s);
    }
  }

  /** The matches depend on the search text only through its lower-cased form. */
  lemma {:induction false} MatchingIgnoresCase(songs: seq<Song>, m1: string, m2: string)
    requires Lower(m1) == Lower(m2)
    ensures Matching(songs, m1) == Matching(songs, m2)
  {
    if songs != [] {
      MatchingIgnoresCase(songs[1..], m1, m2);
    }
  }

  /** Two search texts that differ only in letter case give identical listings. */
  lemma SearchIgnoresCase(st: Store, offset: int, limit: int, m1: string, m2: string, now: DateTime)
    requires IsLiteralPattern(m1) && IsLiteralPattern(m2)
    requires CaseVariants(m1, m2)
    ensures GetSongs(st, offset, limit, Some(m1), now) == GetSongs(st, offset, limit, Some(m2), now)
  {
    LowerIsCaseBlind(m1, m2);
    MatchingIgnoresCase(st.songs, m1, m2);
  }

  // ---------------------------------------------------------------------------
  // GET /songs/average_difficulty

  function SumDifficulty(songs: seq<Song>): real
  {
    if songs == [] then 0.0 else songs[0].difficulty + SumDifficulty(songs[1..])
  }

  lemma {:induction false} SumDifficultyAppend(a: seq<Song>, b: seq<Song>)
    ensures SumDifficulty(a + b) == SumDifficulty(a) + SumDifficulty(b)
  {
    if a == [] {
      assert a + b == b;
    } else {
      assert (a + b)[1..] == a[1..] + b;
      SumDifficultyAppend(a[1..], b);
    }
  }

  /** A sum of difficulties, each in (0, 100], lies in (0, 100 * |songs|] for a non-empty list. */
  lemma {:induction false} SumDifficultyBounds(songs: seq<Song>)
    requires forall i :: 0 <= i < |songs| ==> 0.0 < songs[i].difficulty <= MaxDifficulty
    ensures songs != [] ==> 0.0 < SumDifficulty(songs)
    ensures SumDifficulty(songs) <= |songs| as real * MaxDifficulty
  {
    if songs != [] {
      assert forall i :: 0 <= i < |songs[1..]| ==> songs[1..][i] == songs[i + 1];
      SumDifficultyBounds(songs[1..]);
    }
  }

  /** `total / n` for a total in (0, 100 * n]. */
  lemma AverageInRange(total: real, n: real)
    requires n > 0.0
    requires 0.0 < total <= n * MaxDifficulty
    ensures 0.0 < total / n <= MaxDifficulty
  {
    Stats.DivideBounds(0.0, total, MaxDifficulty, n);
    assert (total / n) * n == total;
  }

  /**
   get_songs_average_difficulty: the mean difficulty of the selected songs (all songs
   when no level, or level 0, is given), and 0 when nothing is selected.
   */
  function AverageDifficulty(st: Store, level: Option<int>, now: DateTime): (r: Result<real, Error>)
    ensures r.Ok? <==> AllValid(SelectedByLevel(st.songs, level), now)
    ensures r.Err? ==> r.error.Invalid?
    ensures r.Ok? && SelectedByLevel(st.songs, level) == [] ==> r.value == 0.0
    ensures r.Ok? && SelectedByLevel(st.songs, level) != [] ==>
              && 0.0 < r.value <= MaxDifficulty
              && r.value * |SelectedByLevel(st.songs, level)| as real == SumDifficulty(SelectedByLevel(st.songs, level))
  {
    var selected := SelectedByLevel(st.songs, level);
    match ValidateAll(selected, now)
    case Err(e) => Err(e)
    case Ok(_) =>
      if |selected| > 0 then
        var n := |selected| as real;
        SumDifficultyBounds(selected);
        AverageInRange(SumDifficulty(selected), n);
        Ok(SumDifficulty(selected) / n)
      else Ok(0.0)
  }

  /**
   The `level` query parameter's declared type, conint(gt=0, le=100), as the framework
   checks it before the handler runs: an absent level passes, a present one must lie in 1..100.
   */
  function LevelQuery(level: Option<int>): (r: Result<Option<int>, Error>)
    ensures r.Ok? <==> level.None? || 0 < level.value <= MaxLevel
    ensures r.Ok? ==> r.value == level
    ensures level.Some? && level.value <= 0 ==> r == Err(Invalid([FieldError(Level, NotPositiveMessage)]))
    ensures level.Some? && level.value > MaxLevel ==> r == Err(Invalid([FieldError(Level, AboveHundredMessage)]))
  {
    match level
    case None => Ok(None)
    case Some(l) =>
      var errs := CheckLevel(l);
      if errs == [] then Ok(level) else Err(Invalid(errs))
  }

  /** GET /songs/average_difficulty over HTTP: the query parameter check, then the handler. */
  function AverageDifficultyRequest(st: Store, level: Option<int>, now: DateTime): (r: Result<real, Error>)
    ensures level.Some? && level.value <= 0 ==> r == Err(Invalid([FieldError(Level, NotPositiveMessage)]))
    ensures level.Some? && level.value > MaxLevel ==> r == Err(Invalid([FieldError(Level, AboveHundredMessage)]))
    ensures r.Ok? ==> level.None? || IsLevelFilter(level)
    ensures level.None? ==> (r.Ok? <==> AllValid(st.songs, now))
    ensures level.Some? && 0 < level.value <= MaxLevel ==> (r.Ok? <==> AllValid(WithLevel(st.songs, level.value), now))
  {
    match LevelQuery(level)
    case Err(e) => Err(e)
    case Ok(_) => AverageDifficulty(st, level, now)
  }

  /**
   Over HTTP the falsy level 0 never reaches the handler, so a request that names a level
   always filters by it; only a direct call of the handler lists all songs for level 0.
   A request without a level is answered by the handler over all songs.
   */
  lemma RequestedLevelAlwaysFilters(st: Store, level: int, now: DateTime)
    ensures AverageDifficultyRequest(st, Some(level), now).Ok? ==>
              IsLevelFilter(Some(level))
              && AverageDifficultyRequest(st, Some(level), now)
                 == AverageDifficulty(st, Some(level), now)
    ensures AverageDifficultyRequest(st, Some(0), now) == Err(Invalid([FieldError(Level, NotPositiveMessage)]))
    ensures AverageDifficultyRequest(st, None, now) == AverageDifficulty(st, None, now)
  {
  }

  /** Every song of the requested level is selected, and nothing else. */
  lemma {:induction false} WithLevelExact(songs: seq<Song>, level: int, s: Song)
    ensures s in WithLevel(songs, level) <==> s in songs && s.level == level
  {
    if songs != [] {
      WithLevelExact(songs[1..], level, s);
      assert songs == [songs[0]] + songs[1..];
    }
  }

  // ---------------------------------------------------------------------------
  // POST /songs/{song_id}/ratings

  /**
   add_song_rating: the range check first, then the existence check, and only then one
   new rating document.
   */
  function AddSongRating(st: Store, songId: Id, rating: int): (r: Response<RatingPostConfirmation>)
    ensures r.result.Ok? <==> MinRating <= rating <= MaxRating && HasSong(st.songs, songId)
    ensures !(MinRating <= rating <= MaxRating) ==> r.store == st && r.result == Err(ValidateRating(rating).error)
    ensures MinRating <= rating <= MaxRating && !HasSong(st.songs, songId)
            ==> r == Response(st, Err(Http(404, "Song not found")))
    ensures r.result.Ok? ==>
              && r.result.value == RatingPostConfirmation(Successful)
              && r.store.songs == st.songs
              && r.store.ratings == st.ratings + [RatingRecord(Id(st.nextId), songId, rating)]
  {
    match ValidateRating(rating)
    case Err(e) => Response(st, Err(e))
    case Ok(_) =>
      if !HasSong(st.songs, songId) then Response(st, Err(NotFound))
      else Response(InsertRating(st, songId, rating), Ok(RatingPostConfirmation(Successful)))
  }

  /** Submitting a rating keeps the store consistent: fresh unique ids, and ratings that refer to songs. */
  lemma AddSongRatingKeepsConsistency(st: Store, songId: Id, rating: int)
    requires Consistent(st)
    ensures Consistent(AddSongRating(st, songId, rating).store)
  {
    if MinRating <= rating <= MaxRating && HasSong(st.songs, songId) {
      InsertRatingKeepsConsistency(st, songId, rating);
    }
  }

  /** After a successful submission the song's ratings gain exactly the new value, at the end; other songs' are unchanged. */
  lemma AddSongRatingRecords(st: Store, songId: Id, rating: int, other: Id)
    requires AddSongRating(st, songId, rating).result.Ok?
    ensures var after := AddSongRating(st, songId, rating).store;
            && RatingsOf(after.ratings, songId) == RatingsOf(st.ratings, songId) + [rating]
            && (other != songId ==> RatingsOf(after.ratings, other) == RatingsOf(st.ratings, other))
  {
    var rec := RatingRecord(Id(st.nextId), songId, rating);
    RatingsOfAppend(st.ratings, [rec], songId);
    RatingsOfAppend(st.ratings, [rec], other);
  }

  // ---------------------------------------------------------------------------
  // GET /songs/{song_id}/ratings

  /**
   `g` summarises the ratings `values`: its extremes are values of the list that bound
   every other, and its average taken `|values|` times gives back their sum.
   */
  predicate Summarises(g: RatingGet, values: seq<int>)
  {
    && g.lowestRating in values && g.highestRating in values
    && (forall v :: v in values ==> g.lowestRating <= v <= g.highestRating)
    && g.averageRating * |values| as real == Stats.Sum(values) as real
  }

  /** The statistics of a non-empty list of ratings: its mean, its lowest and its highest value. */
  function Statistics(values: seq<int>): (g: RatingGet)
    requires values != []
    ensures Summarises(g, values)
  {
    Stats.MeanTimesCount(values);
    RatingGet(Stats.Mean(values), Stats.Min(values), Stats.Max(values))
  }

  /** The reported average lies between the reported lowest and highest rating. */
  lemma StatisticsBetweenExtremes(values: seq<int>)
    requires values != []
    ensures var g := Statistics(values);
            g.lowestRating as real <= g.averageRating <= g.highestRating as real
  {
    Stats.MeanBetweenExtremes(values);
  }

  /**
   get_song_rating: not found for an unknown song, zeros for a song without ratings,
   otherwise the statistics of its ratings.
   */
  function GetSongRating(st: Store, songId: Id): (r: Result<RatingGet, Error>)
    ensures !HasSong(st.songs, songId) ==> r == Err(Http(404, "Song not found"))
    ensures HasSong(st.songs, songId) && RatingsOf(st.ratings, songId) == [] ==> r == Ok(RatingGet(0.0, 0, 0))
    ensures HasSong(st.songs, songId) && RatingsOf(st.ratings, songId) != [] ==>
              r.Ok? && Summarises(r.value, RatingsOf(st.ratings, songId))
  {
    if !HasSong(st.songs, songId) then Err(NotFound)
    else
      var values := RatingsOf(st.ratings, songId);
      if values == [] then Ok(RatingGet(0.0, 0, 0))
      else
        Ok(Statistics(values))
  }

  /** For a song with ratings, lowest <= average <= highest. */
  lemma RatingAverageBetweenExtremes(st: Store, songId: Id)
    requires GetSongRating(st, songId).Ok?
    ensures var g := GetSongRating(st, songId).value;
            g.lowestRating as real <= g.averageRating <= g.highestRating as real
  {
    var values := RatingsOf(st.ratings, songId);
    if values != [] {
      StatisticsBetweenExtremes(values);
    }
  }

  /** A single rating is its own lowest, highest and mean. */
  lemma StatisticsOfOne(v: int)
    ensures Statistics([v]) == RatingGet(v as real, v, v)
  {
    assert [v][1..] == [];
    assert Stats.Sum([v]) == v;
  }

  /** Statistics for ratings [1, 2, 3]: lowest 1, highest 3, mean 2. */
  lemma StatisticsOneToThree()
    ensures Statistics([1, 2, 3]) == RatingGet(2.0, 1, 3)
  {
    var values := [1, 2, 3];
    assert values[1..] == [2, 3] && values[1..][1..] == [3];
    assert Stats.Sum(values) == 6;
    assert Stats.Min(values) == 1;
    assert Stats.Max(values) == 3;
  }

  /** Statistics for ratings [1, 5]: lowest 1, highest 5, mean 3. */
  lemma StatisticsOneAndFive()
    ensures Statistics([1, 5]) == RatingGet(3.0, 1, 5)
  {
    var values := [1, 5];
    assert values[1..] == [5];
    assert Stats.Sum(values) == 6;
  }

  /** Statistics for ratings [1, 5, 5]: lowest 1, highest 5, mean 11/3. */
  lemma RatingStatisticsExample(st: Store, songId: Id)
    requires HasSong(st.songs, songId)
    requires RatingsOf(st.ratings, songId) == [1, 5, 5]
    ensures GetSongRating(st, songId) == Ok(RatingGet(11.0 / 3.0, 1, 5))
  {
    var values := [1, 5, 5];
    assert values[1..] == [5, 5] && values[1..][1..] == [5];
    assert Stats.Sum(values) == 11;
    assert Stats.Min(values) == 1;
    assert Stats.Max(values) == 5;
  }
}

=== FILE: seed.dfy ===
/**
 The fixture the service is reset to: both collections dropped, then the eleven
 seed songs validated and inserted in order, with their text release dates
 converted to instants first. The second half states what the handlers answer on
 the seeded store.
 */
module Seed {
  import opened Wrappers
  import opened Errors
  import opened Text
  import opened SongSchema
  import opened RatingSchema
  import opened Db
  import opened Router

  /** A seed entry as written in the fixture: the SongBase fields and a `YYYY-MM-DD` release date. */
  datatype SeedRecord = SeedRecord(base: SongBase, released: string)

  const SeedRecords: seq<SeedRecord> := [
    SeedRecord(SongBase("The Beatles", "Lycanthropic Metamorphosis", 14.6, 13), "2016-10-26"),
    SeedRecord(SongBase("The Beatles", "A New Kennel", 9.1, 9), "2010-02-03"),
    SeedRecord(SongBase("Mr Fastfinger", "Awaki-Waki", 15.0, 13), "2012-05-11"),
    SeedRecord(SongBase("The Beatles", "Beatles've Got The Power", 13.22, 13), "2014-12-20"),
    SeedRecord(SongBase("The Beatles", "Wishing In The Night", 10.98, 9), "2016-01-01"),
    SeedRecord(SongBase("The Beatles", "Opa Opa Ta Bouzoukia", 14.66, 13), "2013-04-27"),
    SeedRecord(SongBase("The Beatles", "Greasy Fingers - boss level", 2.0, 3), "2016-03-01"),
    SeedRecord(SongBase("The Beatles", "Alabama Sunrise", 5.0, 6), "2016-04-01"),
    SeedRecord(SongBase("The Beatles", "Can't Buy Me Skills", 9.0, 9), "2016-05-01"),
    SeedRecord(SongBase("The Beatles", "Vivaldi Allegro Mashup", 13.0, 13), "2016-06-01"),
    SeedRecord(SongBase("The Beatles", "Babysitting", 7.0, 6), "2016-07-01")
  ]

  const SeedSize: nat := 11

  /** What lets one fixture entry through: valid fields and a release text that parses to an instant not in the future. */
  predicate Accepted(rec: SeedRecord, now: DateTime, parse: string -> Option<DateTime>)
  {
    ValidBase(rec.base) && parse(rec.released).Some? && NotInFuture(parse(rec.released).value, now)
  }

  /**
   One fixture entry: SongBase validation, then strptime of the release text, then
   SongCreate validation with the parsed instant.
   */
  function ValidateRecord(rec: SeedRecord, now: DateTime, parse: string -> Option<DateTime>)
    : (r: Result<SongCreate, Error>)
    ensures r.Ok? <==> Accepted(rec, now, parse)
    ensures r.Ok? ==> r.value == SongCreate(rec.base, parse(rec.released).value)
    ensures ValidBase(rec.base) && parse(rec.released).None? ==> r == Err(Raised(UnparsableDate(rec.released)))
    ensures !ValidBase(rec.base) ==> r == Err(ValidateSongBase(rec.base).error)
  {
    match ValidateSongBase(rec.base)
    case Err(e) => Err(e)
    case Ok(b) =>
      match parse(rec.released)
      case None => Err(Raised(UnparsableDate(rec.released)))
      case Some(at) => ValidateSongCreate(b, at, now)
  }

  predicate AllAccepted(recs: seq<SeedRecord>, now: DateTime, parse: string -> Option<DateTime>)
  {
    forall i :: 0 <= i < |recs| ==> Accepted(recs[i], now, parse)
  }

  /** The position of the first fixture entry that fails, or `|recs|` when none does. */
  function FirstRejected(recs: seq<SeedRecord>, now: DateTime, parse: string -> Option<DateTime>): (k: nat)
    ensures k <= |recs|
    ensures AllAccepted(recs[..k], now, parse)
    ensures k < |recs| ==> !Accepted(recs[k], now, parse)
  {
    if recs == [] then 0
    else if !Accepted(recs[0], now, parse) then 0
    else
      var k := FirstRejected(recs[1..], now, parse);
      var prefix, tail := recs[..k + 1], recs[1..][..k];
      assert AllAccepted(prefix, now, parse) by {
        forall i | 0 <= i < k + 1
          ensures Accepted(prefix[i], now, parse)
        {
          if i > 0 {
            assert prefix[i] == tail[i - 1];
          }
        }
      }
      k + 1
  }

  /** The whole fixture list is built before anything is inserted; the first failing entry raises. */
  function ValidateRecords(recs: seq<SeedRecord>, now: DateTime, parse: string -> Option<DateTime>)
    : (r: Result<seq<SongCreate>, Error>)
    ensures r.Ok? <==> AllAccepted(recs, now, parse)
    ensures r.Ok? ==> |r.value| == |recs|
    ensures r.Ok? ==> forall i :: 0 <= i < |recs| ==> r.value[i] == SongCreate(recs[i].base, parse(recs[i].released).value)
    ensures r.Err? ==> var k := FirstRejected(recs, now, parse);
                       k < |recs| && r.error == ValidateRecord(recs[k], now, parse).error
  {
    var k := FirstRejected(recs, now, parse);
    if k < |recs| then Err(ValidateRecord(recs[k], now, parse).error)
    else
      assert recs[..k] == recs;
      Ok(seq(|recs|, i requires 0 <= i < |recs| => SongCreate(recs[i].base, parse(recs[i].released).value)))
  }

  /** `insert_many`: the documents in order, each with the next id from the generator. */
  function InsertSongs(creates: seq<SongCreate>, first: nat): (songs: seq<Song>)
    ensures |songs| == |creates|
    ensures forall i :: 0 <= i < |creates| ==> songs[i].id == Id(first + i)
    ensures forall i :: 0 <= i < |creates| ==> songs[i].Base() == creates[i].base && songs[i].released == creates[i].released
  {
    seq(|creates|, i requires 0 <= i < |creates| => FromCreate(Id(first + i), creates[i]))
  }

  /** The inserted documents carry the validated entries' fields and parsed dates, and are valid. */
  lemma InsertedEntries(recs: seq<SeedRecord>, creates: seq<SongCreate>, first: nat, now: DateTime,
                        parse: string -> Option<DateTime>)
    requires ValidateRecords(recs, now, parse) == Ok(creates)
    ensures var songs := InsertSongs(creates, first);
            && |songs| == |recs|
            && forall i :: 0 <= i < |recs| ==>
                 && songs[i].Base() == recs[i].base
                 && parse(recs[i].released) == Some(songs[i].released)
                 && ValidSong(songs[i], now)
  {
    var songs := InsertSongs(creates, first);
    forall i | 0 <= i < |recs|
      ensures songs[i].Base() == recs[i].base
      ensures parse(recs[i].released) == Some(songs[i].released)
      ensures ValidSong(songs[i], now)
    {
      assert Accepted(recs[i], now, parse);
      assert songs[i] == FromCreate(Id(first + i), creates[i]);
    }
  }

  /**
   initialize_db: drop both collections, then insert the validated fixture. A failing
   entry leaves both collections empty.
   */
  function InitializeDb(prior: Store, now: DateTime, parse: string -> Option<DateTime>): (r: Response<()>)
    ensures r.store.ratings == []
    ensures r.store.nextId == prior.nextId + |r.store.songs|
    ensures forall i :: 0 <= i < |r.store.songs| ==> r.store.songs[i].id == Id(prior.nextId + i)
    ensures r.result.Ok? <==> AllAccepted(SeedRecords, now, parse)
    ensures r.result.Err? ==> r.store.songs == []
    ensures r.result.Ok? ==>
              && |r.store.songs| == |SeedRecords|
              && forall i :: 0 <= i < |SeedRecords| ==>
                   && r.store.songs[i].Base() == SeedRecords[i].base
                   && parse(SeedRecords[i].released) == Some(r.store.songs[i].released)
                   && ValidSong(r.store.songs[i], now)
  {
    match ValidateRecords(SeedRecords, now, parse)
    case Err(e) => Response(Store([], [], prior.nextId), Err(e))
    case Ok(creates) =>
      var songs := InsertSongs(creates, prior.nextId);
      InsertedEntries(SeedRecords, creates, prior.nextId, now, parse);
      Response(Store(songs, [], prior.nextId + |songs|), Ok(()))
  }

  /** The reset establishes the store invariant whatever the store held before. */
  lemma InitializeDbConsistent(prior: Store, now: DateTime, parse: string -> Option<DateTime>)
    ensures Consistent(InitializeDb(prior, now, parse).store)
  {
  }

  /** The reset forgets the previous contents: only the id generator carries over. */
  lemma ResetForgetsPriorContents(p1: Store, p2: Store, now: DateTime, parse: string -> Option<DateTime>)
    requires p1.nextId == p2.nextId
    ensures InitializeDb(p1, now, parse) == InitializeDb(p2, now, parse)
  {
  }

  /** Every fixture entry satisfies the SongBase constraints. */
  lemma SeedRecordsValid()
    ensures |SeedRecords| == SeedSize
    ensures forall i :: 0 <= i < |SeedRecords| ==> ValidBase(SeedRecords[i].base)
  {
  }

  /** The reset succeeds exactly when every fixture date parses to an instant no later than `now`. */
  lemma InitializeDbSucceeds(prior: Store, now: DateTime, parse: string -> Option<DateTime>)
    ensures InitializeDb(prior, now, parse).result.Ok?
            <==> forall i :: 0 <= i < |SeedRecords| ==>
                   parse(SeedRecords[i].released).Some? && NotInFuture(parse(SeedRecords[i].released).value, now)
  {
    SeedRecordsValid();
  }

  // ---------------------------------------------------------------------------
  // Handler answers on the seeded store

  /** A store whose songs carry the fixture's fields, in fixture order, all valid at `now`. */
  predicate SeededAt(st: Store, now: DateTime)
  {
    && |st.songs| == SeedSize
    && (forall i :: 0 <= i < SeedSize ==> st.songs[i].Base() == SeedRecords[i].base)
    && AllValid(st.songs, now)
  }

  /** A successful reset yields the seeded store, and it stays seeded as time moves on. */
  lemma InitializeDbSeeds(prior: Store, initNow: DateTime, now: DateTime, parse: string -> Option<DateTime>)
    requires InitializeDb(prior, initNow, parse).result.Ok?
    requires initNow.ticks <= now.ticks
    ensures SeededAt(InitializeDb(prior, initNow, parse).store, now)
  {
  }

  /** Listing counts on the seeded store for seven offset/limit pairs. */
  lemma SeedListingCounts(st: Store, now: DateTime)
    requires SeededAt(st, now)
    ensures |GetSongs(st, DefaultOffset, DefaultLimit, None, now).value| == 11
    ensures |GetSongs(st, 2, DefaultLimit, None, now).value| == 9
    ensures |GetSongs(st, DefaultOffset, 2, None, now).value| == 2
    ensures |GetSongs(st, 2, 2, None, now).value| == 2
    ensures |GetSongs(st, 2, 10, None, now).value| == 9
    ensures |GetSongs(st, 20, DefaultLimit, None, now).value| == 0
    ensures |GetSongs(st, DefaultOffset, 20, None, now).value| == 11
  {
    PageOfValid(st.songs, DefaultOffset, DefaultLimit, now);
    UnfilteredListing(st, DefaultOffset, DefaultLimit, None, now);
    PageOfValid(st.songs, 2, DefaultLimit, now);
    UnfilteredListing(st, 2, DefaultLimit, None, now);
    PageOfValid(st.songs, DefaultOffset, 2, now);
    UnfilteredListing(st, DefaultOffset, 2, None, now);
    PageOfValid(st.songs, 2, 2, now);
    UnfilteredListing(st, 2, 2, None, now);
    PageOfValid(st.songs, 2, 10, now);
    UnfilteredListing(st, 2, 10, None, now);
    PageOfValid(st.songs, 20, DefaultLimit, now);
    UnfilteredListing(st, 20, DefaultLimit, None, now);
    PageOfValid(st.songs, DefaultOffset, 20, now);
    UnfilteredListing(st, DefaultOffset, 20, None, now);
  }

  // Unfolding the two selections over the eleven seeded songs, one position at a time.

  function LevelHit(s: Song, level: int): real
  {
    if s.level == level then s.difficulty else 0.0
  }

  function LevelCount(s: Song, level: int): nat
  {
    if s.level == level then 1 else 0
  }

  lemma WithLevelStep(xs: seq<Song>, i: nat, level: int)
    requires i < |xs|
    ensures SumDifficulty(WithLevel(xs[i..], level)) == LevelHit(xs[i], level) + SumDifficulty(WithLevel(xs[i + 1..], level))
  {
    assert xs[i..][1..] == xs[i + 1..];
    SumDifficultyAppend(if xs[i].level == level then [xs[i]] else [], WithLevel(xs[i + 1..], level));
  }

  lemma WithLevelCountStep(xs: seq<Song>, i: nat, level: int)
    requires i < |xs|
    ensures |WithLevel(xs[i..], level)| == LevelCount(xs[i], level) + |WithLevel(xs[i + 1..], level)|
  {
    assert xs[i..][1..] == xs[i + 1..];
  }

  lemma {:induction false} WithLevelSumOfEleven(xs: seq<Song>, level: int)
    requires |xs| == 11
    ensures SumDifficulty(WithLevel(xs, level))
            == LevelHit(xs[0], level) + LevelHit(xs[1], level) + LevelHit(xs[2], level) + LevelHit(xs[3], level)
               + LevelHit(xs[4], level) + LevelHit(xs[5], level) + LevelHit(xs[6], level) + LevelHit(xs[7], level)
               + LevelHit(xs[8], level) + LevelHit(xs[9], level) + LevelHit(xs[10], level)
  {
    assert xs[11..] == [];
    WithLevelStep(xs, 10, level);
    WithLevelStep(xs, 9, level);
    WithLevelStep(xs, 8, level);
    WithLevelStep(xs, 7, level);
    WithLevelStep(xs, 6, level);
    WithLevelStep(xs, 5, level);
    WithLevelStep(xs, 4, level);
    WithLevelStep(xs, 3, level);
    WithLevelStep(xs, 2, level);
    WithLevelStep(xs, 1, level);
    WithLevelStep(xs, 0, level);
    assert xs[0..] == xs;
  }

  lemma {:induction false} WithLevelCountOfEleven(xs: seq<Song>, level: int)
    requires |xs| == 11
    ensures |WithLevel(xs, level)|
            == LevelCount(xs[0], level) + LevelCount(xs[1], level) + LevelCount(xs[2], level)
               + LevelCount(xs[3], level) + LevelCount(xs[4], level) + LevelCount(xs[5], level)
               + LevelCount(xs[6], level) + LevelCount(xs[7], level) + LevelCount(xs[8], level)
               + LevelCount(xs[9], level) + LevelCount(xs[10], level)
  {
    assert xs[11..] == [];
    WithLevelCountStep(xs, 10, level);
    WithLevelCountStep(xs, 9, level);
    WithLevelCountStep(xs, 8, level);
    WithLevelCountStep(xs, 7, level);
    WithLevelCountStep(xs, 6, level);
    WithLevelCountStep(xs, 5, level);
    WithLevelCountStep(xs, 4, level);
    WithLevelCountStep(xs, 3, level);
    WithLevelCountStep(xs, 2, level);
    WithLevelCountStep(xs, 1, level);
    WithLevelCountStep(xs, 0, level);
    assert xs[0..] == xs;
  }

  /** On a store whose songs are all valid, the average is the selection's total over its size. */
  lemma AverageOfLevel(st: Store, now: DateTime, level: int, total: real, count: nat)
    requires AllValid(st.songs, now)
    requires level != 0
    requires SumDifficulty(WithLevel(st.songs, level)) == total
    requires |WithLevel(st.songs, level)| == count
    ensures AverageDifficulty(st, Some(level), now) == Ok(if count == 0 then 0.0 else total / count as real)
  {
    var sel := WithLevel(st.songs, level);
    forall i | 0 <= i < |sel|
      ensures ValidSong(sel[i], now)
    {
      var j :| 0 <= j < |st.songs| && st.songs[j] == sel[i];
    }
  }

  /** The seeded songs' levels and difficulties, position by position. */
  lemma SeededFields(st: Store, now: DateTime)
    requires SeededAt(st, now)
    ensures st.songs[0].level == 13 && st.songs[0].difficulty == 14.6
    ensures st.songs[1].level == 9 && st.songs[1].difficulty == 9.1
    ensures st.songs[2].level == 13 && st.songs[2].difficulty == 15.0
    ensures st.songs[3].level == 13 && st.songs[3].difficulty == 13.22
    ensures st.songs[4].level == 9 && st.songs[4].difficulty == 10.98
    ensures st.songs[5].level == 13 && st.songs[5].difficulty == 14.66
    ensures st.songs[6].level == 3 && st.songs[6].difficulty == 2.0
    ensures st.songs[7].level == 6 && st.songs[7].difficulty == 5.0
    ensures st.songs[8].level == 9 && st.songs[8].difficulty == 9.0
    ensures st.songs[9].level == 13 && st.songs[9].difficulty == 13.0
    ensures st.songs[10].level == 6 && st.songs[10].difficulty == 7.0
  {
    assert forall i :: 0 <= i < SeedSize ==> st.songs[i].Base() == SeedRecords[i].base;
  }

  /** The total difficulty of one level on the seeded store, in terms of the eleven positions. */
  function SeedLevelTotal(xs: seq<Song>, level: int): real
    requires |xs| == 11
  {
    LevelHit(xs[0], level) + LevelHit(xs[1], level) + LevelHit(xs[2], level) + LevelHit(xs[3], level)
    + LevelHit(xs[4], level) + LevelHit(xs[5], level) + LevelHit(xs[6], level) + LevelHit(xs[7], level)
    + LevelHit(xs[8], level) + LevelHit(xs[9], level) + LevelHit(xs[10], level)
  }

  function SeedLevelCount(xs: seq<Song>, level: int): nat
    requires |xs| == 11
  {
    LevelCount(xs[0], level) + LevelCount(xs[1], level) + LevelCount(xs[2], level) + LevelCount(xs[3], level)
    + LevelCount(xs[4], level) + LevelCount(xs[5], level) + LevelCount(xs[6], level) + LevelCount(xs[7], level)
    + LevelCount(xs[8], level) + LevelCount(xs[9], level) + LevelCount(xs[10], level)
  }

  /** The average for one level on the seeded store, from the level's total and count. */
  lemma SeedLevelAverage(st: Store, now: DateTime, level: int, total: real, count: nat)
    requires SeededAt(st, now)
    requires level != 0
    requires SeedLevelTotal(st.songs, level) == total
    requires SeedLevelCount(st.songs, level) == count
    ensures AverageDifficulty(st, Some(level), now) == Ok(if count == 0 then 0.0 else total / count as real)
  {
    WithLevelSumOfEleven(st.songs, level);
    WithLevelCountOfEleven(st.songs, level);
    AverageOfLevel(st, now, level, total, count);
  }

  /** The seeded songs of level 13 average 14.096. */
  lemma SeedAverageLevel13(st: Store, now: DateTime)
    requires SeededAt(st, now)
    ensures AverageDifficulty(st, Some(13), now) == Ok(14.096)
  {
    SeededFields(st, now);
    SeedLevelAverage(st, now, 13, 70.48, 5);
    assert 70.48 / 5 as real == 14.096;
  }

  /** The seeded songs of level 9 average 29.08 / 3.0. */
  lemma SeedAverageLevel9(st: Store, now: DateTime)
    requires SeededAt(st, now)
    ensures AverageDifficulty(st, Some(9), now) == Ok(29.08 / 3.0)
  {
    SeededFields(st, now);
    SeedLevelAverage(st, now, 9, 29.08, 3);
  }

  /** The seeded songs of level 6 average 6.0. */
  lemma SeedAverageLevel6(st: Store, now: DateTime)
    requires SeededAt(st, now)
    ensures AverageDifficulty(st, Some(6), now) == Ok(6.0)
  {
    SeededFields(st, now);
    SeedLevelAverage(st, now, 6, 12.0, 2);
    assert 12.0 / 2 as real == 6.0;
  }

  /** The seeded songs of level 3 average 2.0. */
  lemma SeedAverageLevel3(st: Store, now: DateTime)
    requires SeededAt(st, now)
    ensures AverageDifficulty(st, Some(3), now) == Ok(2.0)
  {
    SeededFields(st, now);
    SeedLevelAverage(st, now, 3, 2.0, 1);
    assert 2.0 / 1 as real == 2.0;
  }

  /** No seeded song has level 100: its average is 0. */
  lemma SeedAverageLevel100(st: Store, now: DateTime)
    requires SeededAt(st, now)
    ensures AverageDifficulty(st, Some(100), now) == Ok(0.0)
  {
    SeededFields(st, now);
    SeedLevelAverage(st, now, 100, 0.0, 0);
  }

  /** The mean difficulty per level on the seeded store; a level no song has averages to 0. */
  lemma SeedAverageDifficulty(st: Store, now: DateTime)
    requires SeededAt(st, now)
    ensures AverageDifficulty(st, Some(13), now) == Ok(14.096)
    ensures AverageDifficulty(st, Some(9), now) == Ok(29.08 / 3.0)
    ensures AverageDifficulty(st, Some(6), now) == Ok(6.0)
    ensures AverageDifficulty(st, Some(3), now) == Ok(2.0)
    ensures AverageDifficulty(st, Some(100), now) == Ok(0.0)
  {
    SeedAverageLevel13(st, now);
    SeedAverageLevel9(st, now);
    SeedAverageLevel6(st, now);
    SeedAverageLevel3(st, now);
    SeedAverageLevel100(st, now);
  }

  function MatchCount(s: Song, m: string): nat
  {
    if SongMatches(s, m) then 1 else 0
  }

  lemma MatchingStep(xs: seq<Song>, i: nat, m: string)
    requires i < |xs|
    ensures |Matching(xs[i..], m)| == MatchCount(xs[i], m) + |Matching(xs[i + 1..], m)|
  {
    assert xs[i..][1..] == xs[i + 1..];
  }

  /** The first song found is the first song, when that one matches. */
  lemma MatchingHead(xs: seq<Song>, m: string)
    requires xs != [] && SongMatches(xs[0], m)
    ensures Matching(xs, m) != [] && Matching(xs, m)[0] == xs[0]
  {
  }

  /** A first song that does not match is passed over. */
  lemma MatchingSkip(xs: seq<Song>, m: string)
    requires xs != [] && !SongMatches(xs[0], m)
    ensures Matching(xs, m) == Matching(xs[1..], m)
  {
  }

  lemma {:induction false} MatchingCountOfEleven(xs: seq<Song>, m: string)
    requires |xs| == 11
    ensures |Matching(xs, m)|
            == MatchCount(xs[0], m) + MatchCount(xs[1], m) + MatchCount(xs[2], m) + MatchCount(xs[3], m)
               + MatchCount(xs[4], m) + MatchCount(xs[5], m) + MatchCount(xs[6], m) + MatchCount(xs[7], m)
               + MatchCount(xs[8], m) + MatchCount(xs[9], m) + MatchCount(xs[10], m)
  {
    assert xs[11..] == [];
    MatchingStep(xs, 10, m);
    MatchingStep(xs, 9, m);
    MatchingStep(xs, 8, m);
    MatchingStep(xs, 7, m);
    MatchingStep(xs, 6, m);
    MatchingStep(xs, 5, m);
    MatchingStep(xs, 4, m);
    MatchingStep(xs, 3, m);
    MatchingStep(xs, 2, m);
    MatchingStep(xs, 1, m);
    MatchingStep(xs, 0, m);
    assert xs[0..] == xs;
  }

  /** The seeded songs' artists and titles, position by position. */
  lemma SeededTexts(st: Store, now: DateTime)
    requires SeededAt(st, now)
    ensures forall i :: 0 <= i < SeedSize && i != 2 ==> st.songs[i].artist == "The Beatles"
    ensures st.songs[2].artist == "Mr Fastfinger" && st.songs[2].title == "Awaki-Waki"
    ensures st.songs[0].title == "Lycanthropic Metamorphosis"
    ensures st.songs[1].title == "A New Kennel"
    ensures st.songs[3].title == "Beatles've Got The Power"
    ensures st.songs[4].title == "Wishing In The Night"
    ensures st.songs[5].title == "Opa Opa Ta Bouzoukia"
    ensures st.songs[6].title == "Greasy Fingers - boss level"
    ensures st.songs[7].title == "Alabama Sunrise"
    ensures st.songs[8].title == "Can't Buy Me Skills"
    ensures st.songs[9].title == "Vivaldi Allegro Mashup"
    ensures st.songs[10].title == "Babysitting"
  {
    assert forall i :: 0 <= i < SeedSize ==> st.songs[i].Base() == SeedRecords[i].base;
  }

  /** A song matches when its artist contains the search text at a known position. */
  lemma ArtistMatch(s: Song, m: string, k: int)
    requires OccursAt(Lower(s.artist), Lower(m), k)
    ensures SongMatches(s, m)
  {
    MatchAt(s.artist, m, k);
  }

  /** A song matches when its title contains the search text at a known position. */
  lemma TitleMatch(s: Song, m: string, k: int)
    requires OccursAt(Lower(s.title), Lower(m), k)
    ensures SongMatches(s, m)
  {
    MatchAt(s.title, m, k);
  }

  /** A song does not match when its artist and its title each lack some character of the search text. */
  lemma NoMatch(s: Song, m: string, ka: int, kt: int)
    requires 0 <= ka < |m| && LacksIgnoringCase(s.artist, m[ka])
    requires 0 <= kt < |m| && LacksIgnoringCase(s.title, m[kt])
    ensures !SongMatches(s, m)
  {
    LacksCharNoMatch(s.artist, m, ka);
    LacksCharNoMatch(s.title, m, kt);
  }

  /** A search on the seeded store returns every match, as no search there reaches the default limit. */
  lemma SeedSearch(st: Store, now: DateTime, m: string)
    requires SeededAt(st, now)
    requires m != "" && IsLiteralPattern(m)
    ensures GetSongs(st, DefaultOffset, DefaultLimit, Some(m), now) == Ok(Matching(st.songs, m))
  {
    FilteredListing(st, DefaultOffset, DefaultLimit, m, now);
    var page := GetSongs(st, DefaultOffset, DefaultLimit, Some(m), now).value;
    assert page == Matching(st.songs, m);
  }

  /** Eleven songs of which all but the third match: ten found, the first song first. */
  lemma AllButThirdMatch(xs: seq<Song>, m: string)
    requires |xs| == SeedSize
    requires forall i :: 0 <= i < SeedSize && i != 2 ==> SongMatches(xs[i], m)
    requires !SongMatches(xs[2], m)
    ensures |Matching(xs, m)| == 10 && Matching(xs, m)[0] == xs[0]
  {
    MatchingCountOfEleven(xs, m);
    MatchingHead(xs, m);
  }

  /** Eleven songs of which only the third matches: that one song is found. */
  lemma OnlyThirdMatches(xs: seq<Song>, m: string)
    requires |xs| == SeedSize
    requires forall i :: 0 <= i < SeedSize && i != 2 ==> !SongMatches(xs[i], m)
    requires SongMatches(xs[2], m)
    ensures |Matching(xs, m)| == 1 && Matching(xs, m)[0] == xs[2]
  {
    MatchingCountOfEleven(xs, m);
    MatchingSkip(xs, m);
    MatchingSkip(xs[1..], m);
    assert xs[1..][1..] == xs[2..];
    MatchingHead(xs[2..], m);
  }

  /** A search that every seeded song matches except the one by Mr Fastfinger. */
  lemma SearchOmitsOnlyFastfinger(st: Store, now: DateTime, m: string)
    requires SeededAt(st, now)
    requires m != "" && IsLiteralPattern(m)
    requires forall i :: 0 <= i < SeedSize && i != 2 ==> SongMatches(st.songs[i], m)
    requires !SongMatches(st.songs[2], m)
    ensures GetSongs(st, DefaultOffset, DefaultLimit, Some(m), now).Ok?
    ensures var found := GetSongs(st, DefaultOffset, DefaultLimit, Some(m), now).value;
            |found| == 10 && found[0].artist == "The Beatles"
  {
    AllButThirdMatch(st.songs, m);
    SeedSearch(st, now, m);
    assert st.songs[0].Base() == SeedRecords[0].base;
  }

  /** A search that only the seeded song by Mr Fastfinger matches. */
  lemma SearchFindsOnlyFastfinger(st: Store, now: DateTime, m: string)
    requires SeededAt(st, now)
    requires m != "" && IsLiteralPattern(m)
    requires forall i :: 0 <= i < SeedSize && i != 2 ==> !SongMatches(st.songs[i], m)
    requires SongMatches(st.songs[2], m)
    ensures SearchFinds(st, now, m, 1, "Mr Fastfinger")
  {
    OnlyThirdMatches(st.songs, m);
    SeedSearch(st, now, m);
    assert st.songs[2].Base() == SeedRecords[2].base;
  }

  /**
   The searches for part of "The Beatles": the artist of all songs but one, while no character
   of the search text's that "Mr Fastfinger" and "Awaki-Waki" lack lets that one through.
   */
  lemma SearchWithinBeatles(st: Store, now: DateTime, m: string, k: int, ka: int, kt: int)
    requires SeededAt(st, now)
    requires m != "" && IsLiteralPattern(m)
    requires OccursAt(Lower("The Beatles"), Lower(m), k)
    requires 0 <= ka < |m| && LacksIgnoringCase("Mr Fastfinger", m[ka])
    requires 0 <= kt < |m| && LacksIgnoringCase("Awaki-Waki", m[kt])
    ensures GetSongs(st, DefaultOffset, DefaultLimit, Some(m), now).Ok?
    ensures var found := GetSongs(st, DefaultOffset, DefaultLimit, Some(m), now).value;
            |found| == 10 && found[0].artist == "The Beatles"
  {
    SeededTexts(st, now);
    var xs := st.songs;
    forall i | 0 <= i < SeedSize && i != 2
      ensures SongMatches(xs[i], m)
    {
      ArtistMatch(xs[i], m, k);
    }
    NoMatch(xs[2], m, ka, kt);
    SearchOmitsOnlyFastfinger(st, now, m);
  }

  /** The first `count` songs a search on the seeded store lists, the first by `artist`. */
  predicate SearchFinds(st: Store, now: DateTime, m: string, count: nat, artist: string)
    requires IsLiteralPattern(m)
  {
    var r := GetSongs(st, DefaultOffset, DefaultLimit, Some(m), now);
    r.Ok? && |r.value| == count && (count > 0 ==> r.value[0].artist == artist)
  }

  /**
   Searches for part of "The Beatles" find the ten songs of theirs, the first one first. A text
   index search would find none of "Beat", "Th", "The Beat" and "eatl"; the substring search does.
   */
  lemma SeedSearchThe(st: Store, now: DateTime)
    requires SeededAt(st, now)
    ensures SearchFinds(st, now, "The", 10, "The Beatles")
  {
    SearchWithinBeatles(st, now, "The", 0, 1, 1);
  }

  lemma SeedSearchBeatles(st: Store, now: DateTime)
    requires SeededAt(st, now)
    ensures SearchFinds(st, now, "beatles", 10, "The Beatles")
  {
    SearchWithinBeatles(st, now, "beatles", 4, 0, 0);
  }

  lemma SeedSearchBeat(st: Store, now: DateTime)
    requires SeededAt(st, now)
    ensures SearchFinds(st, now, "Beat", 10, "The Beatles")
  {
    assert Lower("The Beatles")[4..8] == "beat" == Lower("Beat");
    SearchWithinBeatles(st, now, "Beat", 4, 0, 0);
  }

  lemma SeedSearchTh(st: Store, now: DateTime)
    requires SeededAt(st, now)
    ensures SearchFinds(st, now, "Th", 10, "The Beatles")
  {
    SearchWithinBeatles(st, now, "Th", 0, 1, 1);
  }

  lemma SeedSearchTheBeat(st: Store, now: DateTime)
    requires SeededAt(st, now)
    ensures SearchFinds(st, now, "The Beat", 10, "The Beatles")
  {
    SearchWithinBeatles(st, now, "The Beat", 0, 1, 1);
  }

  lemma SeedSearchEatl(st: Store, now: DateTime)
    requires SeededAt(st, now)
    ensures SearchFinds(st, now, "eatl", 10, "The Beatles")
  {
    SearchWithinBeatles(st, now, "eatl", 5, 3, 3);
  }

  // The absence facts below are split into groups of five or six texts (first, middle,
  // last titles) only to keep each proof obligation small; together they cover the
  // Beatles' name and every one of their titles.

  /** "waki" is in neither the Beatles' name nor the titles of their first songs. */
  lemma WakiAbsentFromFirstTitles()
    ensures !ContainsIgnoringCase("The Beatles", "waki")
    ensures !ContainsIgnoringCase("Lycanthropic Metamorphosis", "waki")
    ensures !ContainsIgnoringCase("A New Kennel", "waki")
    ensures !ContainsIgnoringCase("Beatles've Got The Power", "waki")
    ensures !ContainsIgnoringCase("Wishing In The Night", "waki")
    ensures !ContainsIgnoringCase("Opa Opa Ta Bouzoukia", "waki")
  {
    LacksCharNoMatch("The Beatles", "waki", 0);
    LacksCharNoMatch("Lycanthropic Metamorphosis", "waki", 0);
    LacksCharNoMatch("A New Kennel", "waki", 3);
    LacksCharNoMatch("Beatles've Got The Power", "waki", 2);
    LacksCharNoMatch("Wishing In The Night", "waki", 2);
    LacksCharNoMatch("Opa Opa Ta Bouzoukia", "waki", 0);
  }

  /** "waki" is in none of the titles of the Beatles' last songs. */
  lemma WakiAbsentFromLastTitles()
    ensures !ContainsIgnoringCase("Greasy Fingers - boss level", "waki")
    ensures !ContainsIgnoringCase("Alabama Sunrise", "waki")
    ensures !ContainsIgnoringCase("Can't Buy Me Skills", "waki")
    ensures !ContainsIgnoringCase("Vivaldi Allegro Mashup", "waki")
    ensures !ContainsIgnoringCase("Babysitting", "waki")
  {
    LacksCharNoMatch("Greasy Fingers - boss level", "waki", 0);
    LacksCharNoMatch("Alabama Sunrise", "waki", 0);
    LacksCharNoMatch("Can't Buy Me Skills", "waki", 0);
    LacksCharNoMatch("Vivaldi Allegro Mashup", "waki", 0);
    LacksCharNoMatch("Babysitting", "waki", 0);
  }

  /** "Awaki-Waki" is in neither the Beatles' name nor the titles of their first songs. */
  lemma AwakiWakiAbsentFromFirstTitles()
    ensures !ContainsIgnoringCase("The Beatles", "Awaki-Waki")
    ensures !ContainsIgnoringCase("Lycanthropic Metamorphosis", "Awaki-Waki")
    ensures !ContainsIgnoringCase("A New Kennel", "Awaki-Waki")
    ensures !ContainsIgnoringCase("Beatles've Got The Power", "Awaki-Waki")
    ensures !ContainsIgnoringCase("Wishing In The Night", "Awaki-Waki")
    ensures !ContainsIgnoringCase("Opa Opa Ta Bouzoukia", "Awaki-Waki")
  {
    LacksCharNoMatch("The Beatles", "Awaki-Waki", 1);
    LacksCharNoMatch("Lycanthropic Metamorphosis", "Awaki-Waki", 1);
    LacksCharNoMatch("A New Kennel", "Awaki-Waki", 4);
    LacksCharNoMatch("Beatles've Got The Power", "Awaki-Waki", 3);
    LacksCharNoMatch("Wishing In The Night", "Awaki-Waki", 3);
    LacksCharNoMatch("Opa Opa Ta Bouzoukia", "Awaki-Waki", 1);
  }

  /** "Awaki-Waki" is in none of the titles of the Beatles' last songs. */
  lemma AwakiWakiAbsentFromLastTitles()
    ensures !ContainsIgnoringCase("Greasy Fingers - boss level", "Awaki-Waki")
    ensures !ContainsIgnoringCase("Alabama Sunrise", "Awaki-Waki")
    ensures !ContainsIgnoringCase("Can't Buy Me Skills", "Awaki-Waki")
    ensures !ContainsIgnoringCase("Vivaldi Allegro Mashup", "Awaki-Waki")
    ensures !ContainsIgnoringCase("Babysitting", "Awaki-Waki")
  {
    LacksCharNoMatch("Greasy Fingers - boss level", "Awaki-Waki", 1);
    LacksCharNoMatch("Alabama Sunrise", "Awaki-Waki", 1);
    LacksCharNoMatch("Can't Buy Me Skills", "Awaki-Waki", 1);
    LacksCharNoMatch("Vivaldi Allegro Mashup", "Awaki-Waki", 1);
    LacksCharNoMatch("Babysitting", "Awaki-Waki", 1);
  }

  /** "Fast" is in neither the Beatles' name nor the titles of their first songs. */
  lemma FastAbsentFromFirstTitles()
    ensures !ContainsIgnoringCase("The Beatles", "Fast")
    ensures !ContainsIgnoringCase("Lycanthropic Metamorphosis", "Fast")
    ensures !ContainsIgnoringCase("A New Kennel", "Fast")
    ensures !ContainsIgnoringCase("Beatles've Got The Power", "Fast")
  {
    LacksCharNoMatch("The Beatles", "Fast", 0);
    LacksCharNoMatch("Lycanthropic Metamorphosis", "Fast", 0);
    LacksCharNoMatch("A New Kennel", "Fast", 0);
    LacksCharNoMatch("Beatles've Got The Power", "Fast", 0);
  }

  /** "Fast" is in none of the titles of the Beatles' middle songs. */
  lemma FastAbsentFromMiddleTitles()
    ensures !ContainsIgnoringCase("Wishing In The Night", "Fast")
    ensures !ContainsIgnoringCase("Opa Opa Ta Bouzoukia", "Fast")
    ensures !ContainsIgnoringCase("Greasy Fingers - boss level", "Fast")
    ensures !ContainsIgnoringCase("Alabama Sunrise", "Fast")
  {
    LacksCharNoMatch("Wishing In The Night", "Fast", 0);
    LacksCharNoMatch("Opa Opa Ta Bouzoukia", "Fast", 0);
    LacksCharNoMatch("Greasy Fingers - boss level", "Fast", 3);
    LacksCharNoMatch("Alabama Sunrise", "Fast", 0);
  }

  /** "Fast" is in none of the titles of the Beatles' last songs. */
  lemma FastAbsentFromLastTitles()
    ensures !ContainsIgnoringCase("Can't Buy Me Skills", "Fast")
    ensures !ContainsIgnoringCase("Vivaldi Allegro Mashup", "Fast")
    ensures !ContainsIgnoringCase("Babysitting", "Fast")
  {
    LacksCharNoMatch("Can't Buy Me Skills", "Fast", 0);
    LacksCharNoMatch("Vivaldi Allegro Mashup", "Fast", 0);
    LacksCharNoMatch("Babysitting", "Fast", 0);
  }

  /** "Ã¤" is in no artist name and in none of the first six titles. */
  lemma ForeignTextAbsentFromFirstTexts()
    ensures !ContainsIgnoringCase("The Beatles", "Ã¤")
    ensures !ContainsIgnoringCase("Mr Fastfinger", "Ã¤")
    ensures !ContainsIgnoringCase("Lycanthropic Metamorphosis", "Ã¤")
    ensures !ContainsIgnoringCase("A New Kennel", "Ã¤")
    ensures !ContainsIgnoringCase("Awaki-Waki", "Ã¤")
    ensures !ContainsIgnoringCase("Beatles've Got The Power", "Ã¤")
    ensures !ContainsIgnoringCase("Wishing In The Night", "Ã¤")
    ensures !ContainsIgnoringCase("Opa Opa Ta Bouzoukia", "Ã¤")
  {
    LacksCharNoMatch("The Beatles", "Ã¤", 0);
    LacksCharNoMatch("Mr Fastfinger", "Ã¤", 0);
    LacksCharNoMatch("Lycanthropic Metamorphosis", "Ã¤", 0);
    LacksCharNoMatch("A New Kennel", "Ã¤", 0);
    LacksCharNoMatch("Awaki-Waki", "Ã¤", 0);
    LacksCharNoMatch("Beatles've Got The Power", "Ã¤", 0);
    LacksCharNoMatch("Wishing In The Night", "Ã¤", 0);
    LacksCharNoMatch("Opa Opa Ta Bouzoukia", "Ã¤", 0);
  }

  /** "Ã¤" is in none of the last five titles. */
  lemma ForeignTextAbsentFromLastTexts()
    ensures !ContainsIgnoringCase("Greasy Fingers - boss level", "Ã¤")
    ensures !ContainsIgnoringCase("Alabama Sunrise", "Ã¤")
    ensures !ContainsIgnoringCase("Can't Buy Me Skills", "Ã¤")
    ensures !ContainsIgnoringCase("Vivaldi Allegro Mashup", "Ã¤")
    ensures !ContainsIgnoringCase("Babysitting", "Ã¤")
  {
    LacksCharNoMatch("Greasy Fingers - boss level", "Ã¤", 0);
    LacksCharNoMatch("Alabama Sunrise", "Ã¤", 0);
    LacksCharNoMatch("Can't Buy Me Skills", "Ã¤", 0);
    LacksCharNoMatch("Vivaldi Allegro Mashup", "Ã¤", 0);
    LacksCharNoMatch("Babysitting", "Ã¤", 0);
  }

  /** A search text in neither the Beatles' name nor any title of theirs matches none of their songs. */
  lemma MissesBeatlesSongs(st: Store, now: DateTime, m: string)
    requires SeededAt(st, now)
    requires !ContainsIgnoringCase("The Beatles", m)
    requires !ContainsIgnoringCase("Lycanthropic Metamorphosis", m)
    requires !ContainsIgnoringCase("A New Kennel", m)
    requires !ContainsIgnoringCase("Beatles've Got The Power", m)
    requires !ContainsIgnoringCase("Wishing In The Night", m)
    requires !ContainsIgnoringCase("Opa Opa Ta Bouzoukia", m)
    requires !ContainsIgnoringCase("Greasy Fingers - boss level", m)
    requires !ContainsIgnoringCase("Alabama Sunrise", m)
    requires !ContainsIgnoringCase("Can't Buy Me Skills", m)
    requires !ContainsIgnoringCase("Vivaldi Allegro Mashup", m)
    requires !ContainsIgnoringCase("Babysitting", m)
    ensures forall i :: 0 <= i < SeedSize && i != 2 ==> !SongMatches(st.songs[i], m)
  {
    SeededTexts(st, now);
  }

  /** A search for "waki" finds Mr Fastfinger's song alone. */
  lemma SeedSearchWaki(st: Store, now: DateTime)
    requires SeededAt(st, now)
    ensures SearchFinds(st, now, "waki", 1, "Mr Fastfinger")
  {
    WakiAbsentFromFirstTitles();
    WakiAbsentFromLastTitles();
    MissesBeatlesSongs(st, now, "waki");
    assert SongMatches(st.songs[2], "waki") by {
      SeededTexts(st, now);
      TitleMatch(st.songs[2], "waki", 1);
    }
    SearchFindsOnlyFastfinger(st, now, "waki");
  }

  /** A search for the full title "Awaki-Waki" finds that song alone. */
  lemma SeedSearchAwakiWaki(st: Store, now: DateTime)
    requires SeededAt(st, now)
    ensures SearchFinds(st, now, "Awaki-Waki", 1, "Mr Fastfinger")
  {
    AwakiWakiAbsentFromFirstTitles();
    AwakiWakiAbsentFromLastTitles();
    MissesBeatlesSongs(st, now, "Awaki-Waki");
    assert SongMatches(st.songs[2], "Awaki-Waki") by {
      SeededTexts(st, now);
      MatchesItself("Awaki-Waki");
    }
    SearchFindsOnlyFastfinger(st, now, "Awaki-Waki");
  }

  /** A search for "Fast" finds Mr Fastfinger's song alone. */
  lemma SeedSearchFast(st: Store, now: DateTime)
    requires SeededAt(st, now)
    ensures SearchFinds(st, now, "Fast", 1, "Mr Fastfinger")
  {
    FastAbsentFromFirstTitles();
    FastAbsentFromMiddleTitles();
    FastAbsentFromLastTitles();
    MissesBeatlesSongs(st, now, "Fast");
    assert SongMatches(st.songs[2], "Fast") by {
      SeededTexts(st, now);
      ArtistMatch(st.songs[2], "Fast", 3);
    }
    SearchFindsOnlyFastfinger(st, now, "Fast");
  }

  /** A search for a text no artist or title holds finds nothing. */
  lemma SeedSearchForeignText(st: Store, now: DateTime)
    requires SeededAt(st, now)
    ensures SearchFinds(st, now, "Ã¤", 0, "")
  {
    SeededTexts(st, now);
    ForeignTextAbsentFromFirstTexts();
    ForeignTextAbsentFromLastTexts();
    MatchingCountOfEleven(st.songs, "Ã¤");
    SeedSearch(st, now, "Ã¤");
  }

  /** A search for "a", in every artist name, finds every song, the first one first. */
  lemma SeedSearchA(st: Store, now: DateTime)
    requires SeededAt(st, now)
    ensures SearchFinds(st, now, "a", SeedSize, "The Beatles")
  {
    SeededTexts(st, now);
    forall i | 0 <= i < SeedSize && i != 2
      ensures SongMatches(st.songs[i], "a")
    {
      ArtistMatch(st.songs[i], "a", 6);
    }
    ArtistMatch(st.songs[2], "a", 4);
    MatchingCountOfEleven(st.songs, "a");
    MatchingHead(st.songs, "a");
    SeedSearch(st, now, "a");
  }

  /** An empty search text lists every song, the first one first. */
  lemma SeedSearchEmpty(st: Store, now: DateTime)
    requires SeededAt(st, now)
    ensures SearchFinds(st, now, "", SeedSize, "The Beatles")
  {
    SeededTexts(st, now);
    UnfilteredListing(st, DefaultOffset, DefaultLimit, Some(""), now);
  }
}

=== FILE: song_schema.dfy ===
/**
 The song records and their field validation (the SongBase / SongCreate / SongInDB
 models). Validation reports every failing field, in declaration order, each with
 the message pydantic attaches to the violated bound.
 */
module SongSchema {
  import opened Wrappers
  import opened Errors

  /** A store-assigned document id (ObjectId), opaque apart from equality. */
  datatype Id = Id(serial: nat)

  /** An instant; instants are ordered by `ticks`. */
  datatype DateTime = DateTime(ticks: int)

  const MinTextLength: nat := 1
  const MaxArtistLength: nat := 50
  const MaxTitleLength: nat := 100
  const MaxDifficulty: real := 100.0
  const MaxLevel: int := 100

  const FutureReleaseMessage := "Released date can not be in the future"

  /** The constrained fields every song carries (SongBase). */
  datatype SongBase = SongBase(artist: string, title: string, difficulty: real, level: int)

  /** SongBase plus its release instant (SongCreate). */
  datatype SongCreate = SongCreate(base: SongBase, released: DateTime)

  /** A stored song (SongInDB); also the shape each listed song is returned in (SongGet). */
  datatype Song = Song(id: Id, artist: string, title: string, difficulty: real, level: int, released: DateTime)
  {
    function Base(): SongBase
    {
      SongBase(artist, title, difficulty, level)
    }
  }

  function FromCreate(id: Id, c: SongCreate): Song
  {
    Song(id, c.base.artist, c.base.title, c.base.difficulty, c.base.level, c.released)
  }

  /** The constraints of SongBase, stated field by field. */
  predicate ValidBase(b: SongBase)
  {
    && MinTextLength <= |b.artist| <= MaxArtistLength
    && MinTextLength <= |b.title| <= MaxTitleLength
    && 0.0 < b.difficulty <= MaxDifficulty
    && 0 < b.level <= MaxLevel
  }

  /** A release instant is acceptable unless it lies strictly after `now`. */
  predicate NotInFuture(released: DateTime, now: DateTime)
  {
    released.ticks <= now.ticks
  }

  predicate ValidSong(s: Song, now: DateTime)
  {
    ValidBase(s.Base()) && NotInFuture(s.released, now)
  }

  /** The fields of `b` that violate a constraint, in declaration order. */
  function FailingFields(b: SongBase): seq<Field>
  {
    (if MinTextLength <= |b.artist| <= MaxArtistLength then [] else [Artist])
    + (if MinTextLength <= |b.title| <= MaxTitleLength then [] else [Title])
    + (if 0.0 < b.difficulty <= MaxDifficulty then [] else [Difficulty])
    + (if 0 < b.level <= MaxLevel then [] else [Level])
  }

  function Locs(errs: seq<FieldError>): (locs: seq<Field>)
    ensures |locs| == |errs|
  {
    if errs == [] then [] else [errs[0].loc] + Locs(errs[1..])
  }

  lemma LocsAppend(a: seq<FieldError>, b: seq<FieldError>)
    ensures Locs(a + b) == Locs(a) + Locs(b)
  {
    if a == [] {
      assert a + b == b;
    } else {
      assert (a + b)[1..] == a[1..] + b;
    }
  }

  const MinLengthMessage := "ensure this value has at least 1 characters"
  const ArtistTooLongMessage := "ensure this value has at most 50 characters"
  const TitleTooLongMessage := "ensure this value has at most 100 characters"
  const NotPositiveMessage := "ensure this value is greater than 0"
  const AboveHundredMessage := "ensure this value is less than or equal to 100"

  /** constr(min_length=1, max_length=maxLength): the lower bound is checked first. */
  function CheckLength(loc: Field, s: string, maxLength: nat, tooLong: string): (errs: seq<FieldError>)
    ensures errs == [] <==> MinTextLength <= |s| <= maxLength
    ensures Locs(errs) == if errs == [] then [] else [loc]
  {
    if |s| < MinTextLength then [FieldError(loc, MinLengthMessage)]
    else if |s| > maxLength then [FieldError(loc, tooLong)]
    else []
  }

  /** confloat(gt=0, le=100). */
  function CheckDifficulty(d: real): (errs: seq<FieldError>)
    ensures errs == [] <==> 0.0 < d <= MaxDifficulty
    ensures Locs(errs) == if errs == [] then [] else [Difficulty]
  {
    if d <= 0.0 then [FieldError(Difficulty, NotPositiveMessage)]
    else if d > MaxDifficulty then [FieldError(Difficulty, AboveHundredMessage)]
    else []
  }

  /** conint(gt=0, le=100). */
  function CheckLevel(l: int): (errs: seq<FieldError>)
    ensures errs == [] <==> 0 < l <= MaxLevel
    ensures Locs(errs) == if errs == [] then [] else [Level]
  {
    if l <= 0 then [FieldError(Level, NotPositiveMessage)]
    else if l > MaxLevel then [FieldError(Level, AboveHundredMessage)]
    else []
  }

  function BaseErrors(b: SongBase): (errs: seq<FieldError>)
    ensures errs == [] <==> ValidBase(b)
    ensures Locs(errs) == FailingFields(b)
  {
    var a := CheckLength(Artist, b.artist, MaxArtistLength, ArtistTooLongMessage);
    var t := CheckLength(Title, b.title, MaxTitleLength, TitleTooLongMessage);
    var d := CheckDifficulty(b.difficulty);
    var l := CheckLevel(b.level);
    LocsAppend(a, t);
    LocsAppend(a + t, d);
    LocsAppend(a + t + d, l);
    a + t + d + l
  }

  /** Constructing a SongBase: every field is checked and every failure reported. */
  function ValidateSongBase(b: SongBase): (r: Result<SongBase, Error>)
    ensures r.Ok? <==> ValidBase(b)
    ensures r.Ok? ==> r.value == b
    ensures r.Err? ==> r.error.Invalid? && Locs(r.error.errors) == FailingFields(b) != []
  {
    var errs := BaseErrors(b);
    if errs == [] then Ok(b) else Err(Invalid(errs))
  }

  /** The `released` validator: refuses an instant strictly after `now`, else passes it through. */
  function EnsureDateRange(released: DateTime, now: DateTime): (r: Result<DateTime, FieldError>)
    ensures r.Ok? <==> !(now.ticks < released.ticks)
    ensures r.Ok? ==> r.value == released
    ensures r.Err? ==> r.error == FieldError(Released, "Released date can not be in the future")
  {
    if now.ticks < released.ticks then Err(FieldError(Released, FutureReleaseMessage)) else Ok(released)
  }

  /** Constructing a SongCreate: the inherited SongBase fields, then `released`. */
  function ValidateSongCreate(b: SongBase, released: DateTime, now: DateTime): (r: Result<SongCreate, Error>)
    ensures r.Ok? <==> ValidBase(b) && NotInFuture(released, now)
    ensures r.Ok? ==> r.value == SongCreate(b, released)
    ensures r.Err? ==> r.error.Invalid?
    ensures r.Err? ==> Locs(r.error.errors)
                       == FailingFields(b) + (if NotInFuture(released, now) then [] else [Released])
  {
    var dateErrors := match EnsureDateRange(released, now)
                      case Ok(_) => []
                      case Err(e) => [e];
    var errs := BaseErrors(b) + dateErrors;
    LocsAppend(BaseErrors(b), dateErrors);
    if errs == [] then Ok(SongCreate(b, released)) else Err(Invalid(errs))
  }

  /** Re-validating a stored song as SongInDB or SongGet: the SongCreate checks; the id is taken as given. */
  function ValidateSong(s: Song, now: DateTime): (r: Result<Song, Error>)
    ensures r.Ok? <==> ValidSong(s, now)
    ensures r.Ok? ==> r.value == s
    ensures r.Err? ==> r.error.Invalid? && r.error.errors != []
  {
    match ValidateSongCreate(s.Base(), s.released, now)
    case Ok(_) => Ok(s)
    case Err(e) => Err(e)
  }

  /** SongCreate and SongInDB extend SongBase: passing either validation implies every SongBase constraint. */
  lemma DerivedModelsKeepBaseConstraints(s: Song, now: DateTime)
    ensures ValidateSongCreate(s.Base(), s.released, now).Ok? ==> ValidateSongBase(s.Base()).Ok?
    ensures ValidateSong(s, now).Ok? ==> ValidateSongBase(s.Base()).Ok?
  {
  }

  /** Validity of a stored song only depends on `now` through the release bound, so it persists as time passes. */
  lemma ValidityPersists(s: Song, earlier: DateTime, later: DateTime)
    requires ValidSong(s, earlier)
    requires earlier.ticks <= later.ticks
    ensures ValidSong(s, later)
  {
  }
}

=== FILE: stats.dfy ===
/** The aggregates the handlers compute over integer ratings: sum, minimum, maximum and mean. */
module Stats {

  function Sum(xs: seq<int>): int
  {
    if xs == [] then 0 else xs[0] + Sum(xs[1..])
  }

  function Min(xs: seq<int>): (m: int)
    requires |xs| > 0
    ensures m in xs
    ensures forall x :: x in xs ==> m <= x
  {
    if |xs| == 1 then xs[0]
    else
      var rest := Min(xs[1..]);
      assert forall x :: x in xs ==> x == xs[0] || x in xs[1..];
      if xs[0] <= rest then xs[0] else rest
  }

  function Max(xs: seq<int>): (m: int)
    requires |xs| > 0
    ensures m in xs
    ensures forall x :: x in xs ==> x <= m
  {
    if |xs| == 1 then xs[0]
    else
      var rest := Max(xs[1..]);
      assert forall x :: x in xs ==> x == xs[0] || x in xs[1..];
      if rest <= xs[0] then xs[0] else rest
  }

  function Mean(xs: seq<int>): real
    requires |xs| > 0
  {
    Sum(xs) as real / |xs| as real
  }

  /** The mean taken `|xs|` times gives back the sum. */
  lemma MeanTimesCount(xs: seq<int>)
    requires |xs| > 0
    ensures Mean(xs) * |xs| as real == Sum(xs) as real
  {
  }

  /** A sum of values all at least `lo` (at most `hi`) is at least `|xs| * lo` (at most `|xs| * hi`). */
  lemma {:induction false} SumBounds(xs: seq<int>, lo: int, hi: int)
    requires forall x :: x in xs ==> lo <= x <= hi
    ensures |xs| * lo <= Sum(xs) <= |xs| * hi
  {
    if xs != [] {
      var n := |xs| - 1;
      assert xs[0] in xs;
      assert forall x :: x in xs[1..] ==> x in xs;
      SumBounds(xs[1..], lo, hi);
      assert n * lo <= Sum(xs[1..]) <= n * hi;
      assert (n + 1) * lo == lo + n * lo;
      assert (n + 1) * hi == hi + n * hi;
    }
  }

  /** Integer bounds on a product carry over to the reals. */
  lemma ToReal(n: int, lo: int, s: int, hi: int)
    requires n * lo <= s <= n * hi
    ensures n as real * lo as real <= s as real <= n as real * hi as real
  {
    assert (n * lo) as real == n as real * lo as real;
    assert (n * hi) as real == n as real * hi as real;
  }

  /** Dividing bounds of the form `n * lo <= s <= n * hi` by a positive `n`. */
  lemma DivideBounds(lo: real, s: real, hi: real, n: real)
    requires n > 0.0
    requires n * lo <= s <= n * hi
    ensures lo <= s / n <= hi
  {
    var q := s / n;
    assert q * n == s;
    assert (q - lo) * n >= 0.0;
    assert (hi - q) * n >= 0.0;
  }

  /** The mean of a non-empty list lies between its minimum and its maximum. */
  lemma MeanBetweenExtremes(xs: seq<int>)
    requires |xs| > 0
    ensures Min(xs) as real <= Mean(xs) <= Max(xs) as real
  {
    var lo, hi, n, total := Min(xs), Max(xs), |xs|, Sum(xs);
    SumBounds(xs, lo, hi);
    MeanBounds(n, lo, total, hi);
  }

  /** A total bounded by `n * lo` and `n * hi` has its `n`-th part between `lo` and `hi`. */
  lemma MeanBounds(n: int, lo: int, total: int, hi: int)
    requires n > 0
    requires n * lo <= total <= n * hi
    ensures lo as real <= total as real / n as real <= hi as real
  {
    ToReal(n, lo, total, hi);
    DivideBounds(lo as real, total as real, hi as real, n as real);
  }
}

=== FILE: text.dfy ===
/**
 Character-level helpers for the case-insensitive search: ASCII lower-casing,
 substring containment, and the shape of a search text that a regular expression
 engine would read literally.
 */
module Text {

  function LowerChar(c: char): char
  {
    if 'A' <= c <= 'Z' then (c as int + 32) as char else c
  }

  function Lower(s: string): string
  {
    seq(|s|, i requires 0 <= i < |s| => LowerChar(s[i]))
  }

  /** `p` occurs in `s` starting at position `i`. */
  predicate OccursAt(s: string, p: string, i: int)
  {
    0 <= i <= |s| - |p| && s[i..i + |p|] == p
  }

  predicate Contains(s: string, p: string)
  {
    exists i | 0 <= i <= |s| - |p| :: OccursAt(s, p, i)
  }

  /** What a `$regex` query with the `i` option decides for a literal pattern. */
  predicate ContainsIgnoringCase(s: string, p: string)
  {
    Contains(Lower(s), Lower(p))
  }

  /** Two texts that differ at most in the case of their ASCII letters. */
  predicate CaseVariants(a: string, b: string)
  {
    |a| == |b| && forall i :: 0 <= i < |a| ==> LowerChar(a[i]) == LowerChar(b[i])
  }

  /** The characters that carry meaning in a regular expression outside a bracket expression. */
  predicate IsRegexMeta(c: char)
  {
    || c == '.' || c == '^' || c == '$' || c == '*' || c == '+' || c == '?' || c == '('
    || c == ')' || c == '[' || c == ']' || c == '{' || c == '}' || c == '|' || c == '\\'
  }

  /** A search text that a regular expression engine matches as the literal text itself. */
  predicate IsLiteralPattern(p: string)
  {
    forall i :: 0 <= i < |p| ==> !IsRegexMeta(p[i])
  }

  lemma LowerIsCaseBlind(a: string, b: string)
    requires CaseVariants(a, b)
    ensures Lower(a) == Lower(b)
  {
    assert forall i :: 0 <= i < |a| ==> Lower(a)[i] == Lower(b)[i];
  }

  /** A text lacking one of the characters of `p` cannot contain `p`. */
  lemma LacksCharNotContains(s: string, p: string, k: int)
    requires 0 <= k < |p|
    requires p[k] !in s
    ensures !Contains(s, p)
  {
  }

  /** No character of `s` is `c`, ignoring case. */
  predicate LacksIgnoringCase(s: string, c: char)
  {
    forall i :: 0 <= i < |s| ==> LowerChar(s[i]) != LowerChar(c)
  }

  /** Case-insensitive form of LacksCharNotContains. */
  lemma LacksCharNoMatch(s: string, p: string, k: int)
    requires 0 <= k < |p|
    requires LacksIgnoringCase(s, p[k])
    ensures !ContainsIgnoringCase(s, p)
  {
    LacksCharNotContains(Lower(s), Lower(p), k);
  }

  /** Every text contains itself, whatever the case of its letters. */
  lemma MatchesItself(s: string)
    ensures ContainsIgnoringCase(s, s)
  {
    assert Lower(s)[0..|s|] == Lower(s);
    assert OccursAt(Lower(s), Lower(s), 0);
  }

  /** Case-insensitive containment from a witness position. */
  lemma MatchAt(s: string, p: string, i: int)
    requires OccursAt(Lower(s), Lower(p), i)
    ensures ContainsIgnoringCase(s, p)
  {
  }

  /** Case-insensitive containment of a text carries over to every part of that text. */
  lemma MatchOfPart(s: string, p: string, q: string, j: int)
    requires ContainsIgnoringCase(s, p)
    requires OccursAt(Lower(p), Lower(q), j)
    ensures ContainsIgnoringCase(s, q)
  {
    var ls, lp, lq := Lower(s), Lower(p), Lower(q);
    assert Contains(ls, lp);
    var i :| 0 <= i <= |ls| - |lp| && OccursAt(ls, lp, i);
    assert 0 <= j <= |lp| - |lq| && lp[j..j + |lq|] == lq;
    forall k | 0 <= k < |lq|
      ensures ls[i + j + k] == lq[k]
    {
      assert ls[i..i + |lp|][j + k] == lp[j + k];
      assert lp[j..j + |lq|][k] == lq[k];
    }
    assert ls[i + j..i + j + |lq|] == lq;
    assert OccursAt(ls, lq, i + j);
  }
}

=== FILE: wrappers.dfy ===
/** Failure-carrying wrappers shared by every module of the songs service model. */
module Wrappers {

  /** An optional value: an absent query parameter, a date string that does not parse. */
  datatype Option<+T> = None | Some(value: T)

  /** The outcome of a handler: a value, or the exception the handler lets escape. */
  datatype Result<+T, +E> = Ok(value: T) | Err(error: E)
}
